=== FILE: README.md ===
# waffle core, modelled in Dafny

waffle is a thin layer of dependency-injection glue over SQLAlchemy, argh and Clastic. This
project models the parts of it that keep state or compute something on their own, and proves
what they promise:

- `db.dfy` (module `Db`) covers waffle/db.py.
  - An `ExplicitSession` counts how deeply it is nested in `with` blocks. Entering raises the
    depth and then begins a sub-transaction. Leaving flushes then commits, or only rolls back
    when an exception is leaving, and then lowers the depth.
  - Any of these ORM calls may raise; which one does is a parameter. A `begin` that raises
    leaves the depth raised. A flush, commit or rollback that raises skips the rest of
    `__exit__`, so the depth is not lowered. A run of blocks leaves the depth raised by exactly
    the number of ORM calls that raised in it: it never ends below where it started, and it
    comes back exactly when none of the calls made raised.
  - A `with` body may catch what escapes the blocks inside it. Then an ORM failure in an inner
    block can leave the depth raised with no exception escaping the outer block.
  - The `ExplicitSessionManager` keeps at most one session per thread. It makes a thread's
    session on that thread's first `with`, forwards `__exit__`, and closes and forgets the
    session on `remove`.
  - It refuses `Model.query` outside a transaction. It refuses attribute proxying only when the
    thread has no session.
  - The module also holds `session_from` and `transaction`: each once as written and once
    corrected (see Findings).
  - Each session records, in order, the ORM calls it makes (begin, flush, commit, rollback,
    close). The model does not model what the ORM does with them.
- `model_repr.dfy` (module `ModelRepr`) covers `_Model.__repr__` in waffle/db.py. The result
  is `Name(k1=v1, k2=v2)`.
  - It has one entry per column of every mapped class in the MRO. Each mapped class's own
    `polymorphic_on` column is removed from that class's entries; the same column still shows
    when another class in the MRO contributes it.
  - Entries are in Python's string order and joined by `, `.
  - Python's dict is an association list with distinct keys. The order in which it holds them
    does not matter, because its items are sorted before they are rendered. A column's text
    (`repr(getattr(self, name))`) is a function of the column name.
- `reltime.dfy` (module `Reltime`) covers `parse_reltime` in waffle/util.py.
  - It scans `([-+]?\d+)(ms|[dhms])` the way `re.findall` does: left to right, without
    overlap, skipping what does not match.
  - It sums each component's signed value times its unit, in integer milliseconds.
  - A duration argument is returned as it is.
- `flags.dfy` (module `Flags`) covers waffle/flags.py.
  - It models `_flag_name` (`"Flag"` + `str.title` with the underscores removed) and the
    `Flag` key cache.
  - It models `FlagsModule.configure`, which binds the parsed arguments. It then binds, in
    option order, each option except `help` and suppressed ones to the parsed value, or to the
    option's default when that value is missing.
- `clastic.dfy` (module `Clastic`) covers waffle/web/clastic.py.
  - It models the `route` registry and the `routes` decorator, and how `RoutesModule` treats
    a missing route list.
  - `RequestScope` keeps one provider per key until `reset`. Keys are objects and compare by
    identity. A provider that raises leaves nothing cached.
  - `RequestScopeMiddleware.request` resets the scope before and after each request. The
    handler starts on an empty scope. Whatever it leaves in the scope, and whether it returns
    or raises, the scope is empty afterwards.
- `injector.dfy` (module `Injector`) holds the injector's binding keys and its binder, which
  both `flags.py` and `web/clastic.py` bind to.
- `wrappers.dfy` holds the `Option` and `Result` types.

The docstring of `ExplicitSessionManager` allows queries only within a transaction. The code
tests `not self._registry()._depth`, which rejects only a depth of exactly 0. The model follows
the code, so `Access` lets a negative depth (more exits than entries) through.

`session_from` returns a `_session` attribute that is None as it is. That is the one case in
which `transaction` reaches its decorator path.

## Model

| member | source | states |
|---|---|---|
| Reltime.DigitRun | waffle/util.py:4 | the greedy `\d+`: the longest all-digit prefix, the character after it being no digit (ASCII digits, as Python 2's `re` without UNICODE) |
| Reltime.UnitAt | waffle/util.py:4 | a unit match at the head of the text consumes at least one character and no more than there are |
| Reltime.MatchPrefix | waffle/util.py:4 | a component match at the head of the text consumes at least a digit and a unit letter and at most all of its characters, so the scan moves forward |
| Reltime.MatchUnsigned | waffle/util.py:4 | digits followed by a unit, at the head of the text, consume at least two characters and no more than there are |
| Reltime.DigitsValue | waffle/util.py:17 | `float(n)` of a digit string: its decimal value (stated by DigitsValueOfNatDigits) |
| Reltime.DigitsValueOfNatDigits | waffle/util.py:17 | reading back the decimal digits of any natural number gives that number |
| Reltime.Findall | waffle/util.py:16 | `findall` of the component pattern finds at most one component per two characters of text |
| Reltime.FactorMs | waffle/util.py:5 | the unit table in milliseconds: `ms` 1, `s` 1000, `m` 60 000, `h` 3 600 000, `d` 86 400 000 (stated by RenderParsesToTotal and DocumentedExample) |
| Reltime.Weight | waffle/util.py:17 | one component's `float(n) * factor`, in milliseconds (stated by TotalNonNegative and ParseReltime) |
| Reltime.Total | waffle/util.py:15-17 | the running sum `s` of the loop: each component's signed value times its unit, in milliseconds (stated by ParseReltime and TotalNonNegative) |
| Reltime.TotalNonNegative | waffle/util.py:15-17 | with no negative component the sum is not negative |
| Reltime.ReltimeMs | waffle/util.py:13-18 | the duration `parse_reltime` returns, in milliseconds (stated by ParseReltime and the lemmas below) |
| Reltime.FindallNegativeNeedsMinus | waffle/util.py:4 | a component is negative only if the text holds a minus sign |
| Reltime.UnsignedTextNonNegative | waffle/util.py:4-18 | a text without a minus sign never parses to a negative duration |
| Reltime.ParseReltime | waffle/util.py:8-18 | a duration comes back unchanged; for a string, the loop over the components `findall` returns gives exactly the sum of their signed values times their unit factors |
| Reltime.Idempotent | waffle/util.py:13-14 | parsing an already parsed duration gives the same duration |
| Reltime.NoDigitsIsZero | waffle/util.py:15-18 | a text with no digit has no component and parses to a zero duration |
| Reltime.SkipsJunk | waffle/util.py:16 | characters that are neither digits nor signs are skipped: prefixing them changes no match |
| Reltime.FindallRender | waffle/util.py:4 | rendering any list of components as `<int><unit>` and scanning it back gives the same components in order (round trip) |
| Reltime.RenderParsesToTotal | waffle/util.py:16-17 | the duration of a text in the documented form is the sum of its components times the unit factors of line 5 |
| Reltime.DocumentedExample | waffle/util.py:9 | `5h3m2s` is 5·3600 + 3·60 + 2 seconds |
| Reltime.MillisBeforeMinutes | waffle/util.py:4-5 | `5ms` is one component of five milliseconds, not five minutes and a stray `s` |
| Reltime.SignPerComponent | waffle/util.py:4 | a sign belongs to its own component: `-1m30s` is −60 s + 30 s |
| Flags.TitleFrom | waffle/flags.py:30 | `str.title` keeps the length of the text |
| Flags.TitleAt | waffle/flags.py:30 | per position of `str.title`: non-letters kept, a letter after a letter lower-cased, any other letter upper-cased |
| Flags.Title | waffle/flags.py:30 | `str.title` keeps the length of the text (per position, see TitleAt) |
| Flags.RemoveUnderscores | waffle/flags.py:30 | `replace('_', '')`: no underscore left, every other character kept, none added |
| Flags.RemoveUnderscoresCounts | waffle/flags.py:30 | `replace('_', '')` keeps every other character exactly as often as it occurs and drops every underscore |
| Flags.FlagName | waffle/flags.py:29-30 | a flag's key name starts with `Flag` and has no underscore after it |
| Flags.FlagNameOfSnakeCase | waffle/flags.py:29-30 | a lower-case snake_case name such as `database_uri` becomes `Flag` followed by its CamelCase (`FlagDatabaseUri`) |
| Flags.FlagKeys.constructor | waffle/flags.py:26 | the key cache starts empty |
| Flags.FlagKeys.Flag | waffle/flags.py:33-39 | the key named `_flag_name(name)`: the cached one when there is one, else a new one that is cached; at most the entry for `name` is added and no other entry changes |
| Flags.FlagTwice | waffle/flags.py:35-36 | two calls with one name return the identical key, which is the cached one |
| Flags.IsBound | waffle/flags.py:60 | an option gets a flag binding unless its `dest` is `help` or `==SUPPRESS==` |
| Flags.Selected | waffle/flags.py:61 | the value bound for an option: the parsed value when the namespace has one, else the option's default |
| Flags.FlagBindings | waffle/flags.py:59-62 | the flag bindings the loop issues, in option order (stated by FlagBindingsShape, FlagBindingsAt and FlagBindingsComplete) |
| Flags.FlagBindingsShape | waffle/flags.py:59-62 | at most one binding per option, each binding a flag key to a value, never `Flags` itself |
| Flags.FlagBindingsAt | waffle/flags.py:59-62 | every flag binding `configure` issues binds a bound option's key to that option's selected value |
| Flags.FlagBindingsComplete | waffle/flags.py:59-62 | every option except `help` and `==SUPPRESS==` gets a binding of its key to the parsed value, else its default |
| Flags.ConfigureStep | waffle/flags.py:59-62 | handling one more option as the loop body does extends the bindings and the cache as `FlagBindings` and `Dests` say |
| Flags.FlagsModule.constructor | waffle/flags.py:47-49 | the module keeps the parsed arguments it is given |
| Flags.FlagsModule.Configure | waffle/flags.py:51-62 | binds `Flags` to the arguments first, then exactly `FlagBindings` of the options, in order; the cache gains exactly the bound options' names, earlier entries unchanged |
| Flags.FlagsModule.BindOption | waffle/flags.py:60-62 | one pass of the loop: `help` and suppressed options change nothing; any other option's key is cached by `Flag` if new, earlier entries unchanged, and one binding of it to the selected value is issued |
| Clastic.NewRoutesModule | waffle/web/clastic.py:29-30 | a missing route list is taken as empty, a given one is kept as it is |
| Clastic.RouteTable.constructor | waffle/web/clastic.py:23 | `_routes = []`: the route list starts empty |
| Clastic.RouteTable.Route | waffle/web/clastic.py:49-57 | `route(path, renderer)(f)` sets `f.__route__` to `(path, renderer)`, appends exactly the triple `(path, f, renderer)` to the route list and returns `f` |
| Clastic.RouteTriples | waffle/web/clastic.py:39 | the triples exist exactly when every function has a `__route__`; then one per function, in argument order, built from its `__route__` |
| Clastic.Routes | waffle/web/clastic.py:36-46 | the wrapper appends one RoutesModule of those triples to the function's existing `__injector_modules__` and returns the function; without every `__route__` it fails and changes nothing |
| Clastic.RequestScope.constructor | waffle/web/clastic.py:72-75 | a configured scope is empty |
| Clastic.RequestScope.Reset | waffle/web/clastic.py:68-70 | after `reset` the scope is empty |
| Clastic.Provider.Get | waffle/web/clastic.py:81 | `provider.get()` runs once per call and returns a new object of that provider, or raises |
| Clastic.RequestScope.Get | waffle/web/clastic.py:77-83 | a stored key returns its provider without calling the provider; a new key calls `provider.get()` exactly once and stores and returns an InstanceProvider of its result, or passes its exception on and stores nothing |
| Clastic.GetTwice | waffle/web/clastic.py:78-83 | once a lookup of a key has succeeded, a second one before a reset returns the same provider, and the provider has run at most once |
| Clastic.SameNameDistinctKeys | waffle/web/clastic.py:77-83 | keys are compared as objects: two keys with one name get two instances, and the provider runs twice |
| Injector.Binder.Bind | waffle/web/clastic.py:97-98 | `binder.bind`, as the middleware and `FlagsModule.configure` (waffle/flags.py:58, 62) call it: the binding is issued at the end of the binder's list, after the earlier ones |
| Clastic.RequestScopeMiddleware.constructor | waffle/web/clastic.py:91-93 | the middleware keeps the scope and binder it is given, and the two keys it binds under |
| Clastic.RequestScopeMiddleware.Request | waffle/web/clastic.py:95-102 | the scope is empty when `next` runs, and empty again afterwards whatever `next` left in it and whether it returned or raised; the outcome is passed through; the session cookie and request are bound, in that order |
| Db.ExplicitSession.constructor | waffle/db.py:26-28 | a new session has depth 0 and has made no ORM call |
| Db.ExplicitSession.Enter | waffle/db.py:30-33 | depth one higher and one `begin` issued, even when `begin` raises; the session itself is returned, or the `begin` error |
| Db.ExplicitSession.Exit | waffle/db.py:35-41 | flush then commit on success, only rollback on an exception, stopping at the call that raises; the depth is one lower only when none raised, and that call's error is returned |
| Db.ExplicitSession.Close | waffle/db.py:77 | `close` is issued and the depth is left as it is |
| Db.Closed | waffle/db.py:77 | the state after `close`: the call logged, the depth kept (see ExplicitSession.Close) |
| Db.EnterFails | waffle/db.py:30-32 | `__enter__` raises exactly when `begin` raises (see ExplicitSession.Enter) |
| Db.Entered | waffle/db.py:30-32 | the state after `__enter__`: depth one higher, one `begin` logged (see ExplicitSession.Enter) |
| Db.ExitCalls | waffle/db.py:36-40 | `__exit__` calls only rollback when an exception leaves; otherwise flush then commit, and no commit exactly when flush raised |
| Db.Exited | waffle/db.py:35-41 | the state after `__exit__`: its calls logged, the depth one lower unless one of them raised (see ExplicitSession.Exit) |
| Db.ExitFails | waffle/db.py:35-41 | `__exit__` raises exactly when one of the calls it makes raises (see ExplicitSession.Exit) |
| Db.Run | waffle/db.py:30-41 | a nested `with session:` block: a raising `begin` skips the body and `__exit__`; an exception escaping an inner block skips the rest of a body that does not catch it and makes `__exit__` roll back (stated by RunBalanced, RunNeverBelow and the scenario lemmas) |
| Db.RunAll | waffle/db.py:30-41 | the blocks directly inside a body, run in order up to the first escape, or all of them when the body catches (stated by RunAllBalanced and RunAllNeverBelow) |
| Db.EnterExitOpen | waffle/db.py:30-41 | entering opens one transaction; exiting when no ORM call raises ends one, either way |
| Db.RunBalanced | waffle/db.py:30-41 | a `with` block in which no ORM call raises, however nested, whichever inner blocks raise and whichever bodies catch, restores the depth and ends every transaction it began |
| Db.RunAllBalanced | waffle/db.py:30-41 | the same for blocks run one after another, when no ORM call raises |
| Db.FreshRunBalanced | waffle/db.py:26-41 | a fresh session is back at depth 0 after any block in which no ORM call raises, and its depth equals its open transactions |
| Db.RunNeverBelow | waffle/db.py:30-41 | whatever raises and whatever bodies catch, a block leaves the depth raised by exactly the number of ORM calls that raised in it, so never below where it started and back exactly when none raised; when no body catches, any such failure escapes the block |
| Db.RunAllNeverBelow | waffle/db.py:30-41 | the same for blocks run one after another, inside a body that catches or not |
| Db.NestedRollback | waffle/db_test.py:82-91 | an inner block raising through an outer one issues two begins and two rollbacks and leaves depth 0 |
| Db.FlushFailureLeavesDepth | waffle/db.py:35-41 | a flush that raises in `__exit__` leaves a fresh session at depth 1 with no commit, so model queries are still allowed afterwards |
| Db.CaughtFlushFailureLeavesDepth | waffle/db.py:30-41 | an outer body that catches an inner block's failed flush commits and leaves normally: nothing escapes and the depth stays 1 |
| Db.BeginFailureLeavesDepth | waffle/db.py:30-33 | a `begin` that raises leaves a fresh session at depth 1, with only the `begin` logged and the exception escaping |
| Db.ExplicitSessionManager.constructor | waffle/db.py:56-58 | no thread has a session |
| Db.ExplicitSessionManager.Enter | waffle/db.py:63-67 | the thread's session is reused, or made fresh only when it has none, then entered; the session or the `begin` error is returned; no other thread's session is made or changed |
| Db.ExplicitSessionManager.Exit | waffle/db.py:69-72 | forwarded to the thread's session only, passing on the error of an ORM call that raises; nothing at all when the thread has none |
| Db.ExplicitSessionManager.Remove | waffle/db.py:74-78 | the thread's session, if any, is closed; unless `close` raises, the thread is left without one; other threads are untouched, so a second call changes nothing |
| Db.ExplicitSessionManager.Query | waffle/db.py:80-96 | None for an unmapped class; InvalidRequestError for a mapped one exactly when the thread has no session or its depth is 0; otherwise a query on the thread's session |
| Db.ExplicitSessionManager.Proxy | waffle/db.py:98-102 | InvalidRequestError exactly when the thread has no session; otherwise its session, at any depth |
| Db.NestedRollbackScenario | waffle/db_test.py:82-91 | through the manager, a raising inner block inside a raising outer one leaves depth 0 after two begins and two rollbacks |
| Db.QueryAfterBlockScenario | waffle/db_test.py:27-32 | after a `with` block has ended, a model query is refused while proxying still works |
| Db.FlushFailureScenario | waffle/db.py:63-87 | through the manager, a flush that raises in `__exit__` is passed on and leaves the thread's session at depth 1, so a model query still succeeds |
| Db.ThreadLocalScenario | waffle/db_test.py:72-80 | while one thread is inside a block, another has no session and its queries are refused; its own session is a different object and leaves the first thread's depth at 1 |
| Db.Access | waffle/db.py:84-87 | the guard of `Model.query`: nothing for an unmapped class, refused without a session or at depth 0, else bound (stated by ExplicitSessionManager.Query) |
| Db.ModelSession | waffle/db.py:189-190 | `thing.query.session` for a model: the thread's session when the query guard lets it through, else the guard's error (stated by SessionFromCases) |
| Db.SessionFromAsWritten | waffle/db.py:183-195 | `session_from` as written, classes admitted only when `type(thing) is type` (stated by ModelClassRefusedAsWritten) |
| Db.SessionFrom | waffle/db.py:183-195 | `session_from` with model classes accepted (stated by SessionFromCases) |
| Db.Decorate | waffle/db.py:224-237 | the decorator path: a `self`/`cls` method is wrapped, another function is marked (stated by DecoratorUnreachableAsWritten) |
| Db.TransactionAsWritten | waffle/db.py:220-237 | `transaction` as written, calling `session_from` first (stated by DecoratorUnreachableAsWritten and TransactionUsesSession) |
| Db.Transaction | waffle/db.py:198-237 | `transaction` as documented (stated by TransactionUsesSession and DecoratorUnreachableAsWritten) |
| Db.SessionFromCases | waffle/db.py:183-195 | sessions and managers come back unchanged; a mapped model yields the thread's session exactly inside a transaction; functions and other objects raise ValueError; None only from a `_session` attribute holding None |
| Db.TransactionUsesSession | waffle/db.py:220-222 | for a non-function, `transaction` returns exactly the session `session_from` finds or propagates its error; as written and corrected agree except on model classes |
| Db.ModelClassRefusedAsWritten | waffle/db.py:189 | as written, a model class is refused with ValueError even inside a transaction, where the corrected `session_from` yields the thread's session |
| Db.DecoratorUnreachableAsWritten | waffle/db.py:220-237 | as written, `@transaction` on any function raises ValueError; corrected, a `self`/`cls` method is wrapped and a plain function is marked |
| ModelRepr.LexLessTotal | waffle/db.py:144 | Python's string order is total on distinct strings |
| ModelRepr.LexLessTransitive | waffle/db.py:144 | Python's string order is transitive |
| ModelRepr.LexLess | waffle/db.py:144 | Python's order on strings: a proper prefix first, else the first differing character decides (irreflexive, transitive and total by the lemmas around it) |
| ModelRepr.Put | waffle/db.py:128 | `d[k] = v` keeps keys distinct; the new entries are `(k, v)` and the old ones of other keys |
| ModelRepr.Delete | waffle/db.py:131-132 | `del d[k]` raises KeyError exactly when `k` is not a key; otherwise it drops exactly the entry of `k` |
| ModelRepr.PutColumnsSpec | waffle/db.py:126-128 | the column loop adds exactly the table's column names, each holding its column text |
| ModelRepr.PutColumns | waffle/db.py:126-128 | the column loop of `reprs` (stated by PutColumnsSpec) |
| ModelRepr.TableAttrs | waffle/db.py:125-133 | `reprs(cls)` (stated by TableAttrsSpec) |
| ModelRepr.TableAttrsSpec | waffle/db.py:125-133 | `reprs(cls)`: every column but the polymorphic one, each holding its text; KeyError exactly when the polymorphic column is not among the columns |
| ModelRepr.UpdateSpec | waffle/db.py:140 | `update` gives the union of the keys, distinct, each holding its column text |
| ModelRepr.Update | waffle/db.py:140 | `attrs.update(...)` (stated by UpdateSpec) |
| ModelRepr.MroAttrsSpec | waffle/db.py:135-141 | `mro_reprs`: KeyError exactly when some mapped class fails its `del`; otherwise exactly the union of the tables' keys, each holding its column text |
| ModelRepr.SharedDiscriminatorShows | waffle/db.py:125-141 | a subclass sharing its parent's table without its own `polymorphic_on` keeps the discriminator column among `mro_reprs`'s keys, though the parent's `reprs` removes it |
| ModelRepr.MroAttrsFromSpec | waffle/db.py:138-141 | the rest of the MRO loop: KeyError exactly when a remaining mapped class fails its `del`; otherwise the keys so far and the remaining tables' keys, each holding its column text |
| ModelRepr.MroAttrsFrom | waffle/db.py:138-140 | the MRO loop from a given dict on (stated by MroAttrsFromSpec) |
| ModelRepr.MroAttrs | waffle/db.py:135-141 | `mro_reprs` (stated by MroAttrsSpec) |
| ModelRepr.SortItemsSorted | waffle/db.py:143-145 | `sorted(items)` of a dict is in strictly increasing key order |
| ModelRepr.SortItemsPermutes | waffle/db.py:143-145 | `sorted(items)` keeps every entry: a permutation |
| ModelRepr.SortedUnique | waffle/db.py:144 | two strictly sorted entry lists with the same entries are equal, so the sorted order does not depend on insertion order |
| ModelRepr.SortItems | waffle/db.py:144 | `sorted(attrs.items())` by insertion (stated by SortItemsSorted and SortItemsPermutes) |
| ModelRepr.ReprSpec | waffle/db.py:124-148 | the repr is `Name(` + the entries of exactly the MRO's keys, each with its text, strictly sorted, as `k=v` joined by `, ` + `)`; it fails exactly when some `del` fails |
| ModelRepr.ReprOrderIndependent | waffle/db.py:143-148 | the order of columns and classes does not show: MROs with the same keys give the same text |
| ModelRepr.ReprNoColumns | waffle/db.py:147-148 | with no keys left the repr is `Name()` |
| ModelRepr.Format | waffle/db.py:143-145 | `format`: one `key=value` per entry, in order (stated by ReprSpec) |
| ModelRepr.Join | waffle/db.py:148 | `', '.join` (stated by ReprSpec) |
| ModelRepr.Render | waffle/db.py:147-148 | `'%s(%s)'` of the class name and the joined entries (stated by ReprSpec) |
| ModelRepr.Repr | waffle/db.py:124-148 | `__repr__` (stated by ReprSpec, ReprOrderIndependent and ReprNoColumns) |

## Left out

- SQLAlchemy: what begin, flush, commit, rollback and close do to the data, including whether
  an inner rollback discards the outer transaction's writes. Sessions only record these calls.
  Whether one of them raises is a parameter (a `Fault`), at most one per session method; why
  it raises is not modelled.
- `class_mapper` and `UnmappedClassError` become a flag saying whether a class is mapped. A
  custom `query_cls` and the session's own query class both count as "a query on the thread's
  session".
- `ThreadLocalRegistry` (`ExplicitSessionManager.registry`): per-thread storage is a map
  keyed by a thread id, and a thread is a parameter. Concurrency is not modelled; there is no
  locking logic in the code.
- `ExplicitSessionManager.configure`: it only forwards options to the session factory, which is
  not part of this model.
- `DatabaseModule` (engine, sessionmaker, `create_all`, the `sqlite:` pool-size switch) and the
  `_Model` helpers `session`, `save`, `query_self` and `__tablename__`: ORM plumbing.
- Db.SessionFrom: a model's `query.session` is the thread's session only as far as the query
  guard goes. What else a SQLAlchemy `Query` offers is not modelled.
- Reltime.ParseReltime: Python floats and `datetime.timedelta` become integer milliseconds.
  Precision lost by `float(n)` for huge `n`, the inexact `0.001` factor and timedelta's range
  limit are not modelled.
- Reltime: Python 2's `re` without the UNICODE flag matches only ASCII digits with `\d`, and
  the model does the same. Digits from other scripts are not modelled.
- Flags.TitleFrom: `str.title` cases ASCII letters only in this model. Letters and case rules
  outside ASCII are not modelled.
- The argparse parser and `flag` (`parser.add_argument`) are left out. `configure` gets the
  parser's actions and the parsed namespace as parameters.
- The injector `Key` is a class with a name. The binder is a list of bindings issued. The
  `singleton` scope and the `lambda v=value: v` provider are reduced to the value bound.
- Callers elsewhere in the repository that use `Flag` with other signatures or import
  `FlagKey` are outside this model.
- `RoutesModule.configure` (`multibind` onto the injector) and the rest of the Clastic and
  injector glue are left out. The module-level `_routes` list is the `RouteTable` object.
- Clastic.RequestScopeMiddleware.Request: the handler `next` is not run. Its outcome (a
  returned response or an exception) and the scope it leaves behind are parameters. The scope
  it starts on is stated as a ghost out-parameter. Lookups it makes in between are what
  RequestScope.Get models.
- Clastic.RequestScope: one thread's `_locals.scope`. werkzeug's `Local` gives each thread its
  own, so requests on other threads neither see nor reset it; that per-thread split is not
  modelled here.
- Injector.Key: the injector's keys (the `Request` class, `JSONCookie`, `Key(...)` instances)
  compare by identity; they are objects with a name, and which injector classes they stand for
  is not modelled.
- Clastic.Provider.Get: what the provider builds is not modelled; its result is an object
  marked with the provider and the call's number, and whether it raises is a parameter.
- `LocalManager.cleanup` is reduced to emptying the scope.
- `_Model.__repr__`: each column's text is a function of the column name. `getattr` failures
  and `repr` itself are not modelled. The MRO and each mapped class's table and
  `polymorphic_on` column are given as data.
- A `with` body's exception handling is one flag per block: the body catches what escapes
  every block directly inside it, or none of it. A body that catches only some exception
  types, or only around some of its blocks, or re-raises, is not described.

## Findings

| source | as written | input that shows it | evidently intended | confidence | as-written member | corrected member |
|---|---|---|---|---|---|---|
| waffle/db.py:189 | a class is accepted only when `type(thing) is type` | `transaction(User)` or `session_from(User)` for a declarative model class `User`. Its metaclass is the declarative one, not `type`, so ValueError is raised even inside `with session:` | model classes yield their query's session, as the docstring's `with transaction(User):` shows | high; not executed | Db.SessionFromAsWritten, Db.ModelClassRefusedAsWritten | Db.SessionFrom, Db.SessionFromCases |
| waffle/db.py:220-237 | `session_from(thing)` is called before the decorator path, and it raises ValueError for a function | `@transaction` on `def method(self): ...`: a function is no session, manager or model and has no `_session`, so decoration raises ValueError and lines 224-237 are never reached for it | functions are decorated: a `self`/`cls` method is wrapped in `with session_from(self)`, any other function is marked `__transaction__`, as the docstring shows | high; not executed | Db.TransactionAsWritten, Db.DecoratorUnreachableAsWritten | Db.Transaction, Db.TransactionUsesSession |

=== FILE: clastic.dfy ===
/**
 * Routes and request scoping for the Clastic web integration (waffle/web/clastic.py).
 *
 * `route` records a view in the module-level route list and on the view itself; `routes`
 * builds a RoutesModule from views already marked by `route` and attaches it to an entry
 * point. RequestScope caches one provided instance per key until it is reset, and
 * RequestScopeMiddleware resets it before and after every request.
 */
module Clastic {
  import opened Wrappers
  import opened Injector

  /** The errors these operations raise. */
  datatype Error = AttributeError

  /** A view's renderer: clastic's `render_basic` (the default) or another, by name. */
  datatype Renderer = RenderBasic | NamedRenderer(name: string)

  /** A `(path, view, renderer)` route triple. */
  datatype Route = Triple(path: string, view: View, renderer: Renderer)

  /** A RoutesModule: an injector module binding a fixed list of routes. */
  datatype RoutesModule = RoutesModule(routes: seq<Route>)

  /**
   * A view function, with the two attributes the decorators set on it: `__route__`
   * (absent until `route` marks it) and `__injector_modules__` (absent reads as empty).
   */
  class View {
    var route: Option<(string, Renderer)>
    var injectorModules: seq<RoutesModule>

    constructor ()
      ensures route == None && injectorModules == []
    {
      route := None;
      injectorModules := [];
    }
  }

  /** RoutesModule.__init__: a missing (or empty) route list becomes the empty list. */
  function NewRoutesModule(routes: Option<seq<Route>>): (m: RoutesModule)
    ensures routes.None? ==> m.routes == []
    ensures routes.Some? ==> m.routes == routes.value
  {
    match routes
    case None => RoutesModule([])
    case Some(rs) => RoutesModule(rs)
  }

  /** The module-level `_routes` list. */
  class RouteTable {
    var routes: seq<Route>

    constructor ()
      ensures routes == []
    {
      routes := [];
    }

    /**
     * `route(path, renderer)` applied to the view `f`: marks `f` with its path and renderer,
     * appends exactly one triple to the list and returns `f` itself.
     */
    method Route(path: string, renderer: Renderer, f: View) returns (g: View)
      modifies this, f
      ensures g == f
      ensures f.route == Some((path, renderer))
      ensures f.injectorModules == old(f.injectorModules)
      ensures routes == old(routes) + [Triple(path, f, renderer)]
    {
      f.route := Some((path, renderer));
      routes := routes + [Triple(path, f, renderer)];
      g := f;
    }
  }

  /**
   * The triples of `routes(*fs)`, in argument order, each from its view's `__route__`;
   * a view that `route` never marked raises AttributeError.
   */
  function RouteTriples(fs: seq<View>): (r: Result<seq<Route>, Error>)
    reads fs
    ensures r.Ok? <==> forall i :: 0 <= i < |fs| ==> fs[i].route.Some?
    ensures r.Ok? ==> |r.value| == |fs|
    ensures r.Ok? ==> forall i :: 0 <= i < |fs| ==>
      r.value[i] == Triple(fs[i].route.value.0, fs[i], fs[i].route.value.1)
  {
    if fs == [] then Ok([])
    else if fs[0].route.None? then Err(AttributeError)
    else
      match RouteTriples(fs[1..])
      case Err(e) => Err(e)
      case Ok(rest) => Ok([Triple(fs[0].route.value.0, fs[0], fs[0].route.value.1)] + rest)
  }

  /**
   * `routes(*fs)` applied to the entry point `target`: one RoutesModule holding the triples is
   * appended to `target`'s existing injector modules, and `target` is returned.
   */
  method Routes(fs: seq<View>, target: View) returns (r: Result<View, Error>)
    modifies target
    ensures old(RouteTriples(fs)).Err? ==> r.Err? && unchanged(target)
    ensures old(RouteTriples(fs)).Ok? ==>
      r == Ok(target) && target.route == old(target.route) &&
      target.injectorModules == old(target.injectorModules) + [NewRoutesModule(Some(old(RouteTriples(fs)).value))]
  {
    var triples := RouteTriples(fs);
    match triples
    case Err(e) =>
      r := Err(e);
    case Ok(ts) =>
      var modules := [NewRoutesModule(Some(ts))];
      target.injectorModules := target.injectorModules + modules;
      r := Ok(target);
  }

  // ----- Request scope -----

  /** An object made outside the model: the provider that made it and which call made it. */
  datatype Obj = Obj(origin: string, serial: nat)

  /** What the scope caches per key: an InstanceProvider around one instance. */
  datatype InstanceProvider = InstanceProvider(instance: Obj)

  /** The exception a provider's `get` raised. */
  datatype ProviderError = ProviderError(origin: string)

  /**
   * A provider the injector hands to the scope. What it builds is not modelled; each call
   * of `get` counts, and returns an object marked with the call's number, or raises when
   * `fails` says so.
   */
  class Provider {
    const origin: string
    var calls: nat

    constructor (origin: string)
      ensures this.origin == origin && calls == 0
    {
      this.origin := origin;
      calls := 0;
    }

    method Get(fails: bool) returns (r: Result<Obj, ProviderError>)
      modifies this
      ensures calls == old(calls) + 1
      ensures r == if fails then Err(ProviderError(origin)) else Ok(Obj(origin, old(calls)))
    {
      r := if fails then Err(ProviderError(origin)) else Ok(Obj(origin, calls));
      calls := calls + 1;
    }
  }

  /**
   * RequestScope: the current request's cache of instance providers (`_locals.scope`), as
   * one thread sees it.
   */
  class RequestScope {
    var scope: map<Key, InstanceProvider>

    /** `configure`, which ends by resetting. */
    constructor ()
      ensures scope == map[]
    {
      scope := map[];
    }

    /** `reset`: the scope is emptied. */
    method Reset()
      modifies this
      ensures scope == map[]
    {
      scope := map[];
    }

    /**
     * `get(key, provider)`: the provider cached for `key`; on a miss, `provider.get()` is
     * called exactly once and its result is cached wrapped in an InstanceProvider, or, when
     * it raises, the exception passes through and nothing is cached. A hit does not call the
     * provider.
     */
    method Get(key: Key, provider: Provider, fails: bool) returns (r: Result<InstanceProvider, ProviderError>)
      modifies this, provider
      ensures key in old(scope) ==> r == Ok(old(scope[key])) && scope == old(scope) && provider.calls == old(provider.calls)
      ensures key !in old(scope) ==> provider.calls == old(provider.calls) + 1
      ensures key !in old(scope) && fails ==> r == Err(ProviderError(provider.origin)) && scope == old(scope)
      ensures key !in old(scope) && !fails ==>
        r == Ok(InstanceProvider(Obj(provider.origin, old(provider.calls)))) &&
        scope == old(scope)[key := r.value]
    {
      if key in scope {
        r := Ok(scope[key]);
      } else {
        var made := provider.Get(fails);
        match made
        case Err(e) =>
          r := Err(e);
        case Ok(instance) =>
          var p := InstanceProvider(instance);
          scope := scope[key := p];
          r := Ok(p);
      }
    }
  }

  /**
   * Two lookups of one key between resets: once the first has a provider, the second gives
   * the same one, and the provider runs at most once; a raising provider is called again.
   */
  method GetTwice(s: RequestScope, key: Key, provider: Provider, fails1: bool, fails2: bool)
      returns (r1: Result<InstanceProvider, ProviderError>, r2: Result<InstanceProvider, ProviderError>)
    modifies s, provider
    ensures r1.Ok? ==> r2 == r1 && key in s.scope && s.scope[key] == r1.value
    ensures r1.Ok? ==> provider.calls <= old(provider.calls) + 1
    ensures provider.calls <= old(provider.calls) + 2
  {
    r1 := s.Get(key, provider, fails1);
    r2 := s.Get(key, provider, fails2);
  }

  /**
   * Two keys that share a name are still two keys: a scope holding an instance under one
   * has nothing under the other, and asks the provider again.
   */
  method SameNameDistinctKeys() returns (calls: nat, distinct: bool)
    ensures calls == 2
    ensures distinct
  {
    var k1 := new Key("Session");
    var k2 := new Key("Session");
    var s := new RequestScope();
    var p := new Provider("Session");
    var r1 := s.Get(k1, p, false);
    var r2 := s.Get(k2, p, false);
    calls := p.calls;
    distinct := r1 != r2;
  }

  /** A request-scoped binding issued to the injector's binder. */
  datatype Binding = Binding(key: Key, to: Obj)

  /** How the rest of the request handling (`next()`) ended: a response, or an exception. */
  datatype Outcome = Returned(response: Obj) | Raised

  /** RequestScopeMiddleware: brackets each request with scope resets. */
  class RequestScopeMiddleware {
    const scope: RequestScope
    const binder: Binder<Binding>
    /** The keys it binds per request: the session cookie's and the request's. */
    const sessionCookie: Key
    const requestKey: Key

    constructor (scope: RequestScope, binder: Binder<Binding>, sessionCookie: Key, requestKey: Key)
      ensures this.scope == scope && this.binder == binder
      ensures this.sessionCookie == sessionCookie && this.requestKey == requestKey
    {
      this.scope := scope;
      this.binder := binder;
      this.sessionCookie := sessionCookie;
      this.requestKey := requestKey;
    }

    /**
     * `request(next, request, session)`: the scope is reset, the session cookie and the request
     * are bound, `next` runs on the empty scope (`atNext`) and leaves `leftBehind` in it, and
     * whether it returned or raised (`handled`), the scope is reset again and the outcome
     * passed on.
     */
    method Request(request: Obj, session: Obj, handled: Outcome, leftBehind: map<Key, InstanceProvider>)
        returns (r: Outcome, ghost atNext: map<Key, InstanceProvider>)
      modifies scope, binder
      ensures atNext == map[]
      ensures r == handled
      ensures scope.scope == map[]
      ensures binder.bindings == old(binder.bindings) + [Binding(sessionCookie, session), Binding(requestKey, request)]
    {
      scope.Reset();
      binder.Bind(Binding(sessionCookie, session));
      binder.Bind(Binding(requestKey, request));
      atNext := scope.scope;
      scope.scope := leftBehind;
      r := handled;
      scope.Reset();
    }
  }
}

=== FILE: db.dfy ===
/**
 * Explicit sessions and their per-thread manager (waffle/db.py).
 *
 * An ExplicitSession counts how deeply it is nested in `with` blocks: entering begins a
 * (sub)transaction, leaving flushes and commits, or rolls back when an exception is leaving
 * the block. The ExplicitSessionManager keeps at most one session per thread, made on the
 * thread's first `with`, and refuses model queries outside a transaction. What the ORM does
 * with begin, flush, commit, rollback and close is not modelled: each session records the
 * calls it makes, in order, and which of them raises is a parameter (a Fault).
 */
module Db {
  import opened Wrappers

  type ThreadId = nat

  /** The ORM calls a session makes. */
  datatype OrmCall = Begin | Flush | Commit | Rollback | CloseCall

  /** The ORM call that raises while a session method runs, if any. */
  datatype Fault = NoFault | Fails(call: OrmCall)

  /** The exception an ORM call raised. */
  datatype OrmError = OrmError(call: OrmCall)

  /** What the wrapper itself keeps about a session: its nesting depth and the calls it made. */
  datatype SessionState = SessionState(depth: int, log: seq<OrmCall>)

  /** A session as the session factory makes it. */
  const FreshSession := SessionState(0, [])

  /** `__enter__`: one level deeper, then one (sub)transaction begun; the depth is raised even when `begin` raises. */
  function Entered(st: SessionState): SessionState {
    SessionState(st.depth + 1, st.log + [Begin])
  }

  /** `__enter__` raises exactly when `begin` does. */
  predicate EnterFails(fault: Fault) {
    fault == Fails(Begin)
  }

  /** The calls `__exit__` makes: flush then commit (no commit once flush raised) on success, only rollback on an exception. */
  function ExitCalls(raised: bool, fault: Fault): (calls: seq<OrmCall>)
    ensures raised ==> calls == [Rollback]
    ensures !raised ==> calls == [Flush] || calls == [Flush, Commit]
    ensures !raised ==> (calls == [Flush] <==> fault == Fails(Flush))
  {
    if raised then [Rollback]
    else if fault == Fails(Flush) then [Flush]
    else [Flush, Commit]
  }

  /** `__exit__` raises exactly when one of the calls it makes raises. */
  predicate ExitFails(raised: bool, fault: Fault) {
    fault.Fails? && fault.call in ExitCalls(raised, fault)
  }

  /** `__exit__`: the calls it makes are logged; the depth goes down only when none of them raised. */
  function Exited(st: SessionState, raised: bool, fault: Fault): SessionState {
    SessionState(if ExitFails(raised, fault) then st.depth else st.depth - 1, st.log + ExitCalls(raised, fault))
  }

  /** `close`: logged; the depth is left as it is. */
  function Closed(st: SessionState): SessionState {
    SessionState(st.depth, st.log + [CloseCall])
  }

  /** A session (ExplicitSession), updated in place by `with` blocks. */
  class ExplicitSession {
    var depth: int
    var log: seq<OrmCall>

    function State(): SessionState
      reads this
    {
      SessionState(depth, log)
    }

    constructor ()
      ensures State() == FreshSession
    {
      depth := 0;
      log := [];
    }

    /** `__enter__`: returns the session itself, or the exception `begin` raised. */
    method Enter(fault: Fault) returns (r: Result<ExplicitSession, OrmError>)
      modifies this
      ensures State() == Entered(old(State()))
      ensures r == if EnterFails(fault) then Err(OrmError(Begin)) else Ok(this)
    {
      depth := depth + 1;
      log := log + [Begin];
      if fault == Fails(Begin) {
        r := Err(OrmError(Begin));
      } else {
        r := Ok(this);
      }
    }

    /**
     * `__exit__`; `raised` tells whether an exception is leaving the block. Returns the
     * exception an ORM call raised, in which case the depth is not lowered.
     */
    method Exit(raised: bool, fault: Fault) returns (err: Option<OrmError>)
      modifies this
      ensures State() == Exited(old(State()), raised, fault)
      ensures err == if ExitFails(raised, fault) then Some(OrmError(fault.call)) else None
    {
      if !raised {
        log := log + [Flush];
        if fault == Fails(Flush) {
          return Some(OrmError(Flush));
        }
        log := log + [Commit];
        if fault == Fails(Commit) {
          return Some(OrmError(Commit));
        }
      } else {
        log := log + [Rollback];
        if fault == Fails(Rollback) {
          return Some(OrmError(Rollback));
        }
      }
      depth := depth - 1;
      err := None;
    }

    /** `close`, as the manager's `remove` calls it; returns the exception it raised, if any. */
    method Close(fault: Fault) returns (err: Option<OrmError>)
      modifies this
      ensures State() == Closed(old(State()))
      ensures err == if fault == Fails(CloseCall) then Some(OrmError(CloseCall)) else None
    {
      log := log + [CloseCall];
      err := if fault == Fails(CloseCall) then Some(OrmError(CloseCall)) else None;
    }
  }

  // ----- Nesting -----

  /**
   * A `with session:` block as it ran: the blocks run directly inside it, in order; whether
   * its body catches what escapes those blocks (each wrapped in `try: … except: pass`);
   * whether its own code raises once they are done; and the ORM call that raises on entering
   * and on leaving it, if any.
   */
  datatype Block = Block(inner: seq<Block>, catches: bool, bodyRaises: bool, enterFault: Fault, exitFault: Fault)

  /** The session after a run, whether an exception escapes it, and how many ORM calls raised in it. */
  datatype RunResult = RunResult(state: SessionState, escapes: bool, failures: nat)

  /**
   * Running block `b`: when `__enter__` raises, the body and `__exit__` do not run; an
   * exception escaping an inner block skips the rest of a body that does not catch it, and is
   * seen by `__exit__`.
   */
  function Run(st: SessionState, b: Block): RunResult
    decreases b
  {
    var entered := Entered(st);
    if EnterFails(b.enterFault) then RunResult(entered, true, 1)
    else
      var body := RunAll(entered, b.inner, b.catches);
      var raised := body.escapes || b.bodyRaises;
      var exitFails := ExitFails(raised, b.exitFault);
      RunResult(Exited(body.state, raised, b.exitFault), raised || exitFails,
                body.failures + if exitFails then 1 else 0)
  }

  /**
   * Running the blocks `bs` one after another: without `catches`, up to the first one an
   * exception escapes; with it, all of them, and nothing escapes.
   */
  function RunAll(st: SessionState, bs: seq<Block>, catches: bool): RunResult
    decreases bs
  {
    if bs == [] then RunResult(st, false, 0)
    else
      var first := Run(st, bs[0]);
      if first.escapes && !catches then first
      else
        var rest := RunAll(first.state, bs[1..], catches);
        RunResult(rest.state, rest.escapes, first.failures + rest.failures)
  }

  /** No ORM call raises anywhere in the block. */
  predicate NoFaults(b: Block) {
    b.enterFault == NoFault && b.exitFault == NoFault && forall i :: 0 <= i < |b.inner| ==> NoFaults(b.inner[i])
  }

  /** No body in the block catches what escapes its inner blocks. */
  predicate NoCatches(b: Block) {
    !b.catches && forall i :: 0 <= i < |b.inner| ==> NoCatches(b.inner[i])
  }

  function Count(c: OrmCall, log: seq<OrmCall>): nat {
    if log == [] then 0 else (if log[0] == c then 1 else 0) + Count(c, log[1..])
  }

  /** The transactions a log has begun and not yet ended by a commit or a rollback. */
  function Open(log: seq<OrmCall>): int {
    Count(Begin, log) - Count(Commit, log) - Count(Rollback, log)
  }

  lemma {:induction false} CountAppend(c: OrmCall, a: seq<OrmCall>, b: seq<OrmCall>)
    ensures Count(c, a + b) == Count(c, a) + Count(c, b)
  {
    if a == [] {
      assert a + b == b;
    } else {
      assert (a + b)[1..] == a[1..] + b;
      CountAppend(c, a[1..], b);
    }
  }

  /** Entering opens one transaction, and exiting, when no ORM call raises, ends one either way. */
  lemma EnterExitOpen(st: SessionState, raised: bool)
    ensures Open(Entered(st).log) == Open(st.log) + 1
    ensures Open(Exited(st, raised, NoFault).log) == Open(st.log) - 1
  {
    CountAppend(Begin, st.log, [Begin]);
    CountAppend(Commit, st.log, [Begin]);
    CountAppend(Rollback, st.log, [Begin]);
    var tail := ExitCalls(raised, NoFault);
    assert Count(Begin, tail) == 0 && Count(Commit, tail) + Count(Rollback, tail) == 1 by {
      if raised {
        assert tail[1..] == [];
      } else {
        assert tail[1..] == [Commit];
        assert tail[1..][1..] == [];
      }
    }
    CountAppend(Begin, st.log, tail);
    CountAppend(Commit, st.log, tail);
    CountAppend(Rollback, st.log, tail);
  }

  /**
   * Balanced nesting: when no ORM call raises, however the blocks nest, whichever of them
   * raise and whichever bodies catch, running them leaves the depth where it was and ends
   * every transaction it began.
   */
  lemma {:induction false} RunBalanced(st: SessionState, b: Block)
    requires NoFaults(b)
    ensures Run(st, b).state.depth == st.depth
    ensures Open(Run(st, b).state.log) == Open(st.log)
    ensures Run(st, b).failures == 0
    decreases b
  {
    var body := RunAll(Entered(st), b.inner, b.catches);
    EnterExitOpen(st, false);
    RunAllBalanced(Entered(st), b.inner, b.catches);
    EnterExitOpen(body.state, body.escapes || b.bodyRaises);
  }

  lemma {:induction false} RunAllBalanced(st: SessionState, bs: seq<Block>, catches: bool)
    requires forall i :: 0 <= i < |bs| ==> NoFaults(bs[i])
    ensures RunAll(st, bs, catches).state.depth == st.depth
    ensures Open(RunAll(st, bs, catches).state.log) == Open(st.log)
    ensures RunAll(st, bs, catches).failures == 0
    decreases bs
  {
    if bs != [] {
      RunBalanced(st, bs[0]);
      RunAllBalanced(Run(st, bs[0]).state, bs[1..], catches);
    }
  }

  /** A fresh session after a run in which no ORM call raises is back at depth 0, its depth equal to its open transactions. */
  lemma FreshRunBalanced(b: Block)
    requires NoFaults(b)
    ensures Run(FreshSession, b).state.depth == 0
    ensures Run(FreshSession, b).state.depth == Open(Run(FreshSession, b).state.log)
  {
    RunBalanced(FreshSession, b);
  }

  /**
   * With ORM failures allowed, a run leaves the depth raised by exactly the number of ORM
   * calls that raised in it: never below where it started, and back where it started exactly
   * when none raised. When no body catches, an ORM failure always escapes the run.
   */
  lemma {:induction false} RunNeverBelow(st: SessionState, b: Block)
    ensures Run(st, b).state.depth == st.depth + Run(st, b).failures
    ensures Run(st, b).state.depth >= st.depth
    ensures NoCatches(b) && Run(st, b).failures > 0 ==> Run(st, b).escapes
    decreases b
  {
    if !EnterFails(b.enterFault) {
      RunAllNeverBelow(Entered(st), b.inner, b.catches);
    }
  }

  lemma {:induction false} RunAllNeverBelow(st: SessionState, bs: seq<Block>, catches: bool)
    ensures RunAll(st, bs, catches).state.depth == st.depth + RunAll(st, bs, catches).failures
    ensures RunAll(st, bs, catches).state.depth >= st.depth
    ensures !catches && (forall i :: 0 <= i < |bs| ==> NoCatches(bs[i])) && RunAll(st, bs, catches).failures > 0
            ==> RunAll(st, bs, catches).escapes
    decreases bs
  {
    if bs != [] {
      RunNeverBelow(st, bs[0]);
      var first := Run(st, bs[0]);
      if !(first.escapes && !catches) {
        RunAllNeverBelow(first.state, bs[1..], catches);
        if !catches && forall i :: 0 <= i < |bs| ==> NoCatches(bs[i]) {
          assert NoCatches(bs[0]);
          assert forall i :: 0 <= i < |bs[1..]| ==> NoCatches(bs[1..][i]) by {
            forall i | 0 <= i < |bs[1..]| ensures NoCatches(bs[1..][i]) {
              assert bs[1..][i] == bs[i + 1];
            }
          }
        }
      }
    }
  }

  /** An inner block raising through an outer one: two begins, two rollbacks, depth 0 again. */
  lemma NestedRollback()
    ensures Run(FreshSession, Block([Block([], false, true, NoFault, NoFault)], false, false, NoFault, NoFault))
         == RunResult(SessionState(0, [Begin, Begin, Rollback, Rollback]), true, 0)
  {
  }

  /**
   * A flush that raises on leaving a block (an integrity error, say) leaves the depth at 1 with
   * no block open, and a later query on a mapped class is let through.
   */
  lemma FlushFailureLeavesDepth()
    ensures Run(FreshSession, Block([], false, false, NoFault, Fails(Flush))) == RunResult(SessionState(1, [Begin, Flush]), true, 1)
    ensures Access(true, true, 1) == Bound
  {
  }

  /**
   * An outer body that catches an inner block's failed flush: the outer block commits and
   * leaves normally, nothing escapes, and the depth stays 1.
   */
  lemma CaughtFlushFailureLeavesDepth()
    ensures Run(FreshSession, Block([Block([], false, false, NoFault, Fails(Flush))], true, false, NoFault, NoFault))
         == RunResult(SessionState(1, [Begin, Begin, Flush, Flush, Commit]), false, 1)
  {
  }

  /** A `begin` that raises leaves the depth raised too: `__exit__` never runs. */
  lemma BeginFailureLeavesDepth(inner: seq<Block>, catches: bool, bodyRaises: bool, exitFault: Fault)
    ensures Run(FreshSession, Block(inner, catches, bodyRaises, Fails(Begin), exitFault)) == RunResult(SessionState(1, [Begin]), true, 1)
  {
  }

  // ----- The per-thread manager -----

  /** The errors the database layer raises. */
  datatype DbError = InvalidRequest | ValueError | AttributeError | TypeError

  /** What `Model.query` gives a class: nothing for an unmapped class, a refusal, or a query bound to the session. */
  datatype QueryAccess = Unmapped | Refused | Bound

  /**
   * The guard of `query_property`: a mapped class may be queried only when the thread has a
   * session whose depth is not 0.
   */
  function Access(mapped: bool, registered: bool, depth: int): QueryAccess {
    if !mapped then Unmapped
    else if !registered || depth == 0 then Refused
    else Bound
  }

  /** ExplicitSessionManager: at most one session per thread (the thread-local registry). */
  class ExplicitSessionManager {
    var registry: map<ThreadId, ExplicitSession>

    /** Different threads never share a session object. */
    ghost predicate Valid()
      reads this
    {
      forall t, u :: t in registry && u in registry && t != u ==> registry[t] != registry[u]
    }

    /** The state of each thread's session. */
    function View(): map<ThreadId, SessionState>
      reads this, registry.Values
    {
      map t | t in registry :: registry[t].State()
    }

    constructor ()
      ensures Valid() && registry == map[]
    {
      registry := map[];
    }

    /**
     * `__enter__` on thread `tid`: the thread's session, made by the factory only if the thread
     * has none, is entered and returned (or the exception `begin` raised). No other thread's
     * session is made or changed.
     */
    method Enter(tid: ThreadId, fault: Fault) returns (r: Result<ExplicitSession, OrmError>)
      requires Valid()
      modifies this, registry.Values
      ensures Valid()
      ensures tid in registry && registry == old(registry)[tid := registry[tid]]
      ensures tid in old(registry) ==> registry[tid] == old(registry[tid])
      ensures tid !in old(registry) ==> fresh(registry[tid])
      ensures r == if EnterFails(fault) then Err(OrmError(Begin)) else Ok(registry[tid])
      ensures View() == old(View())[tid := Entered(if tid in old(registry) then old(View())[tid] else FreshSession)]
    {
      ghost var before := View();
      if tid !in registry {
        var sess := new ExplicitSession();
        registry := registry[tid := sess];
      }
      var sess := registry[tid];
      ghost var st := sess.State();
      assert st == if tid in old(registry) then before[tid] else FreshSession;
      r := sess.Enter(fault);
      forall u | u in registry && u != tid
        ensures registry[u].State() == before[u]
      {
      }
      assert View().Keys == before[tid := Entered(st)].Keys;
    }

    /**
     * `__exit__` on thread `tid`: forwarded to the thread's session, passing on the exception an
     * ORM call raised; nothing happens when the thread has no session.
     */
    method Exit(tid: ThreadId, raised: bool, fault: Fault) returns (err: Option<OrmError>)
      requires Valid()
      modifies registry.Values
      ensures registry == old(registry)
      ensures tid in registry ==> View() == old(View())[tid := Exited(old(View())[tid], raised, fault)]
      ensures tid in registry ==> err == if ExitFails(raised, fault) then Some(OrmError(fault.call)) else None
      ensures tid !in registry ==> View() == old(View()) && err == None
    {
      err := None;
      if tid in registry {
        err := registry[tid].Exit(raised, fault);
        forall u | u in registry && u != tid
          ensures registry[u].State() == old(View())[u]
        {
        }
      }
    }

    /**
     * `remove` on thread `tid`: closes the thread's session if it has one, then leaves the
     * thread without a session, unless `close` raised; a second call changes nothing.
     */
    method Remove(tid: ThreadId, fault: Fault) returns (err: Option<OrmError>)
      requires Valid()
      modifies this, registry.Values
      ensures Valid()
      ensures err == if tid in old(registry) && fault == Fails(CloseCall) then Some(OrmError(CloseCall)) else None
      ensures err.None? ==> registry == old(registry) - {tid} && View() == old(View()) - {tid}
      ensures err.Some? ==> registry == old(registry) && View() == old(View())[tid := Closed(old(View())[tid])]
      ensures tid in old(registry) ==> old(registry)[tid].State() == Closed(old(View())[tid])
      ensures tid !in old(registry) ==> registry == old(registry) && unchanged(old(registry).Values)
    {
      err := None;
      if tid in registry {
        err := registry[tid].Close(fault);
        forall u | u in registry && u != tid
          ensures registry[u].State() == old(View())[u]
        {
        }
        if err.Some? {
          return;
        }
      }
      ghost var before := registry;
      registry := registry - {tid};
      forall u | u in registry
        ensures registry[u].State() == old(View())[u]
      {
        assert before[u] == registry[u];
      }
    }

    /**
     * `Model.query` on thread `tid` for a class: no query for an unmapped class;
     * InvalidRequestError for a mapped one unless the thread has a session whose depth is
     * not 0; otherwise a query on the thread's session.
     */
    method Query(tid: ThreadId, mapped: bool) returns (r: Result<Option<ExplicitSession>, DbError>)
      ensures !mapped ==> r == Ok(None)
      ensures r.Err? <==> mapped && (tid !in registry || registry[tid].depth == 0)
      ensures r.Err? ==> r.error == InvalidRequest
      ensures mapped && r.Ok? ==> tid in registry && r.value == Some(registry[tid])
    {
      var registered := tid in registry;
      var depth := if registered then registry[tid].depth else 0;
      match Access(mapped, registered, depth)
      case Unmapped =>
        r := Ok(None);
      case Refused =>
        r := Err(InvalidRequest);
      case Bound =>
        r := Ok(Some(registry[tid]));
    }

    /**
     * Attribute access on the manager (`__getattr__`): proxied to the thread's session, at any
     * depth; InvalidRequestError only when the thread has no session.
     */
    method Proxy(tid: ThreadId) returns (r: Result<ExplicitSession, DbError>)
      ensures r.Err? <==> tid !in registry
      ensures r.Err? ==> r.error == InvalidRequest
      ensures r.Ok? ==> r.value == registry[tid]
    {
      if tid !in registry {
        r := Err(InvalidRequest);
      } else {
        r := Ok(registry[tid]);
      }
    }
  }

  /** Two entries, then two exits with an exception leaving: two begins, two rollbacks, depth 0. */
  lemma TwoRollbacks()
    ensures Exited(Exited(Entered(Entered(FreshSession)), true, NoFault), true, NoFault) ==
      SessionState(0, [Begin, Begin, Rollback, Rollback])
  {
    assert Entered(Entered(FreshSession)) == SessionState(2, [Begin, Begin]);
    assert Exited(SessionState(2, [Begin, Begin]), true, NoFault) == SessionState(1, [Begin, Begin, Rollback]);
  }

  /** test_nested_rollback: an inner block raising through an outer one leaves the session at depth 0. */
  method NestedRollbackScenario(tid: ThreadId) returns (depth: int, log: seq<OrmCall>)
    ensures depth == 0
    ensures log == [Begin, Begin, Rollback, Rollback]
  {
    var manager := new ExplicitSessionManager();
    var outer := manager.Enter(tid, NoFault);
    ghost var s1 := manager.View()[tid];
    assert s1 == Entered(FreshSession);
    var inner := manager.Enter(tid, NoFault);
    ghost var s2 := manager.View()[tid];
    assert s2 == Entered(s1);
    var e1 := manager.Exit(tid, true, NoFault);
    ghost var s3 := manager.View()[tid];
    assert s3 == Exited(s2, true, NoFault);
    var e2 := manager.Exit(tid, true, NoFault);
    assert manager.View()[tid] == Exited(s3, true, NoFault);
    TwoRollbacks();
    depth, log := manager.registry[tid].depth, manager.registry[tid].log;
  }

  /**
   * test_can_not_query_outside_context_manager: after a `with` block has ended the thread still
   * has its session, at depth 0, so queries are refused while attribute access still proxies.
   */
  method QueryAfterBlockScenario(tid: ThreadId) returns (query: Result<Option<ExplicitSession>, DbError>, proxied: bool)
    ensures query == Err(InvalidRequest)
    ensures proxied
  {
    var manager := new ExplicitSessionManager();
    var s := manager.Enter(tid, NoFault);
    var e := manager.Exit(tid, false, NoFault);
    query := manager.Query(tid, true);
    var p := manager.Proxy(tid);
    proxied := p.Ok?;
  }

  /**
   * A flush that raises when a block is left: `__exit__` raises, the depth stays at 1, and a
   * query on a mapped class outside any block is let through.
   */
  method FlushFailureScenario(tid: ThreadId) returns (err: Option<OrmError>, depth: int, queried: bool)
    ensures err == Some(OrmError(Flush))
    ensures depth == 1
    ensures queried
  {
    var manager := new ExplicitSessionManager();
    var s := manager.Enter(tid, NoFault);
    err := manager.Exit(tid, false, Fails(Flush));
    depth := manager.registry[tid].depth;
    var q := manager.Query(tid, true);
    queried := q.Ok?;
  }

  /**
   * test_thread_local_sessions: while one thread is inside a block, another thread has no
   * session (its queries are refused) until it enters its own, which is a different object.
   */
  method ThreadLocalScenario(main: ThreadId, other: ThreadId) returns (refused: bool, distinct: bool, mainDepth: int)
    requires main != other
    ensures refused && distinct && mainDepth == 1
  {
    var manager := new ExplicitSessionManager();
    var s := manager.Enter(main, NoFault);
    var q := manager.Query(other, true);
    refused := q == Err(InvalidRequest);
    var t := manager.Enter(other, NoFault);
    distinct := manager.registry[main] != manager.registry[other];
    assert manager.View()[main].depth == 1;
    var e := manager.Exit(other, false, NoFault);
    assert manager.View()[main].depth == 1;
    mainDepth := manager.registry[main].depth;
  }

  // ----- session_from and transaction -----

  /** What `session_from` and `transaction` may be handed. */
  datatype Thing =
    | SessionObject(sid: nat)                    // an ExplicitSession
    | ManagerObject                              // the ExplicitSessionManager
    | ModelInstance(mapped: bool)                // an instance of a Model class
    | ModelClass(mapped: bool)                   // a Model class (its metaclass is not `type`)
    | WithSessionAttr(session: Option<Thing>)    // any other object with a `_session` attribute
    | Function(selfFirst: bool)                  // a function; selfFirst: its first parameter is `self` or `cls`
    | Plain                                      // anything else

  /** The calling thread's session, as far as `Model.query` looks at it. */
  datatype ThreadContext = ThreadContext(registered: bool, sid: nat, depth: int)

  /** `thing.query.session` for a model instance or class, on the calling thread. */
  function ModelSession(mapped: bool, ctx: ThreadContext): Result<Option<Thing>, DbError> {
    match Access(mapped, ctx.registered, ctx.depth)
    case Unmapped => Err(AttributeError)   // `query` is None, which has no `session`
    case Refused => Err(InvalidRequest)
    case Bound => Ok(Some(SessionObject(ctx.sid)))
  }

  /**
   * `session_from` as written: the class test `type(thing) is type` is false for a Model
   * class, whose metaclass is the declarative one, so a Model class falls through to the
   * `_session` test and is rejected.
   */
  function SessionFromAsWritten(thing: Thing, ctx: ThreadContext): Result<Option<Thing>, DbError> {
    match thing
    case SessionObject(_) => Ok(Some(thing))
    case ManagerObject => Ok(Some(thing))
    case ModelInstance(mapped) => ModelSession(mapped, ctx)
    case WithSessionAttr(s) => Ok(s)
    case ModelClass(_) => Err(ValueError)
    case Function(_) => Err(ValueError)
    case Plain => Err(ValueError)
  }

  /** `session_from` with Model classes accepted, as its documentation intends. */
  function SessionFrom(thing: Thing, ctx: ThreadContext): Result<Option<Thing>, DbError> {
    match thing
    case SessionObject(_) => Ok(Some(thing))
    case ManagerObject => Ok(Some(thing))
    case ModelInstance(mapped) => ModelSession(mapped, ctx)
    case ModelClass(mapped) => ModelSession(mapped, ctx)
    case WithSessionAttr(s) => Ok(s)
    case Function(_) => Err(ValueError)
    case Plain => Err(ValueError)
  }

  /** What `transaction` returns: a session to use in `with`, or a decorated function. */
  datatype Transactional =
    | UseSession(session: Thing)
    | MethodWrapper(f: Thing)       // wraps the method in `with session_from(self)`
    | MarkedFunction(f: Thing)      // the function itself, marked `__transaction__`

  /** The decorator path of `transaction`; anything that is not a function fails `getargspec`. */
  function Decorate(thing: Thing): Result<Transactional, DbError> {
    match thing
    case Function(selfFirst) => Ok(if selfFirst then MethodWrapper(thing) else MarkedFunction(thing))
    case _ => Err(TypeError)
  }

  /**
   * `transaction` as written: `session_from` is asked first and its ValueError propagates,
   * so the decorator path is reached only when a `_session` attribute holds None.
   */
  function TransactionAsWritten(thing: Thing, ctx: ThreadContext): Result<Transactional, DbError> {
    match SessionFromAsWritten(thing, ctx)
    case Err(e) => Err(e)
    case Ok(Some(s)) => Ok(UseSession(s))
    case Ok(None) => Decorate(thing)
  }

  /** `transaction` as documented: functions are decorated, anything else yields its session. */
  function Transaction(thing: Thing, ctx: ThreadContext): Result<Transactional, DbError> {
    if thing.Function? then Decorate(thing)
    else
      match SessionFrom(thing, ctx)
      case Err(e) => Err(e)
      case Ok(Some(s)) => Ok(UseSession(s))
      case Ok(None) => Decorate(thing)
  }

  /**
   * `session_from` returns sessions and managers unchanged, a Model's session only inside a
   * transaction, and otherwise a `_session` attribute or ValueError; it yields None only for a
   * `_session` attribute that is None.
   */
  lemma SessionFromCases(thing: Thing, ctx: ThreadContext)
    ensures (thing.SessionObject? || thing.ManagerObject?) ==> SessionFrom(thing, ctx) == Ok(Some(thing))
    ensures (thing.ModelInstance? || thing.ModelClass?) && thing.mapped ==>
      (SessionFrom(thing, ctx).Ok? <==> ctx.registered && ctx.depth != 0)
    ensures (thing.ModelInstance? || thing.ModelClass?) && thing.mapped && ctx.registered && ctx.depth != 0 ==>
      SessionFrom(thing, ctx) == Ok(Some(SessionObject(ctx.sid)))
    ensures (thing.Function? || thing.Plain?) ==> SessionFrom(thing, ctx) == Err(ValueError)
    ensures (thing.ModelInstance? || thing.ModelClass?) && !thing.mapped ==> SessionFrom(thing, ctx) == Err(AttributeError)
    ensures thing.WithSessionAttr? ==> SessionFrom(thing, ctx) == Ok(thing.session)
    ensures SessionFrom(thing, ctx) == Ok(None) <==> thing == WithSessionAttr(None)
  {
  }

  /** As written, a Model class is refused with ValueError even inside a transaction. */
  lemma ModelClassRefusedAsWritten(mapped: bool, ctx: ThreadContext)
    ensures SessionFromAsWritten(ModelClass(mapped), ctx) == Err(ValueError)
    ensures TransactionAsWritten(ModelClass(mapped), ctx) == Err(ValueError)
    ensures mapped && ctx.registered && ctx.depth != 0 ==>
      Transaction(ModelClass(mapped), ctx) == Ok(UseSession(SessionObject(ctx.sid)))
  {
  }

  /** As written, `@transaction` on any function raises ValueError: the decorator path is never reached. */
  lemma DecoratorUnreachableAsWritten(selfFirst: bool, ctx: ThreadContext)
    ensures TransactionAsWritten(Function(selfFirst), ctx) == Err(ValueError)
    ensures Transaction(Function(selfFirst), ctx) ==
      Ok(if selfFirst then MethodWrapper(Function(selfFirst)) else MarkedFunction(Function(selfFirst)))
  {
  }

  /**
   * `transaction` either hands back the session `session_from` finds or propagates its error;
   * the two definitions differ only on functions and Model classes.
   */
  lemma TransactionUsesSession(thing: Thing, ctx: ThreadContext)
    requires !thing.Function?
    ensures forall s :: Transaction(thing, ctx) == Ok(UseSession(s)) <==> SessionFrom(thing, ctx) == Ok(Some(s))
    ensures SessionFrom(thing, ctx).Err? ==> Transaction(thing, ctx) == Err(SessionFrom(thing, ctx).error)
    ensures !thing.ModelClass? ==> TransactionAsWritten(thing, ctx) == Transaction(thing, ctx)
  {
  }
}

=== FILE: flags.dfy ===
/**
 * Flag keys and flag bindings (waffle/flags.py).
 *
 * Every flag is bound to the injector under a key named after it: `_flag_name` turns
 * `database_uri` into `FlagDatabaseUri`, `Flag` caches one key object per flag name in the
 * module-level `_flag_keys` dictionary, and `FlagsModule.configure` binds the parsed
 * arguments and then, for each parser option, the option's value under its flag key.
 */
module Flags {
  import opened Injector

  // ----- _flag_name: 'Flag' + name.title().replace('_', '') -----

  predicate IsUpper(c: char) { 'A' <= c <= 'Z' }
  predicate IsLower(c: char) { 'a' <= c <= 'z' }

  /** A cased character in the sense of `str.title` on a byte string: an ASCII letter. */
  predicate IsLetter(c: char) { IsUpper(c) || IsLower(c) }

  function ToUpper(c: char): char { if IsLower(c) then (c as int - 32) as char else c }
  function ToLower(c: char): char { if IsUpper(c) then (c as int + 32) as char else c }

  /** `str.title` on the rest of a string, given whether the character before it was cased. */
  function TitleFrom(s: string, prevCased: bool): (r: string)
    ensures |r| == |s|
  {
    if s == [] then []
    else
      var c := s[0];
      [if !IsLetter(c) then c else if prevCased then ToLower(c) else ToUpper(c)]
        + TitleFrom(s[1..], IsLetter(c))
  }

  /** `str.title`. */
  function Title(s: string): (r: string)
    ensures |r| == |s|
  {
    TitleFrom(s, false)
  }

  /** `str.replace('_', '')`: the characters of `s` other than underscores, in order. */
  function RemoveUnderscores(s: string): (r: string)
    ensures |r| <= |s|
    ensures forall i :: 0 <= i < |r| ==> r[i] != '_'
    ensures forall c :: c in r <==> c in s && c != '_'
  {
    if s == [] then []
    else (if s[0] == '_' then [] else [s[0]]) + RemoveUnderscores(s[1..])
  }

  /** `replace('_', '')` keeps every other character as often as it occurs, and drops every underscore. */
  lemma {:induction false} RemoveUnderscoresCounts(s: string)
    ensures multiset(RemoveUnderscores(s)) == multiset(s)['_' := 0]
  {
    if s != [] {
      RemoveUnderscoresCounts(s[1..]);
      assert s == [s[0]] + s[1..];
    }
  }

  /** `_flag_name`: the name of a flag's binding key. */
  function FlagName(name: string): (r: string)
    ensures |r| >= 4 && r[..4] == "Flag"
    ensures forall i :: 4 <= i < |r| ==> r[i] != '_'
  {
    "Flag" + RemoveUnderscores(Title(name))
  }

  /**
   * What `str.title` does at each position: a letter is upper-cased when it starts the string
   * or follows a non-letter, lower-cased otherwise; anything else is left alone.
   */
  lemma {:induction false} TitleFromAt(s: string, prevCased: bool, i: nat)
    requires i < |s|
    ensures TitleFrom(s, prevCased)[i] ==
      if !IsLetter(s[i]) then s[i]
      else if (if i == 0 then prevCased else IsLetter(s[i - 1])) then ToLower(s[i])
      else ToUpper(s[i])
  {
    if i > 0 {
      TitleFromAt(s[1..], IsLetter(s[0]), i - 1);
    }
  }

  lemma TitleAt(s: string, i: nat)
    requires i < |s|
    ensures Title(s)[i] ==
      if !IsLetter(s[i]) then s[i]
      else if i > 0 && IsLetter(s[i - 1]) then ToLower(s[i])
      else ToUpper(s[i])
  {
    TitleFromAt(s, false, i);
  }

  lemma {:induction false} TitleFromAppend(a: string, b: string, prevCased: bool)
    ensures TitleFrom(a + b, prevCased) ==
      TitleFrom(a, prevCased) + TitleFrom(b, if a == [] then prevCased else IsLetter(a[|a| - 1]))
  {
    if a == [] {
      assert a + b == b;
    } else {
      assert (a + b)[1..] == a[1..] + b;
      TitleFromAppend(a[1..], b, IsLetter(a[0]));
    }
  }

  lemma {:induction false} RemoveUnderscoresAppend(a: string, b: string)
    ensures RemoveUnderscores(a + b) == RemoveUnderscores(a) + RemoveUnderscores(b)
  {
    if a == [] {
      assert a + b == b;
    } else {
      assert (a + b)[1..] == a[1..] + b;
      RemoveUnderscoresAppend(a[1..], b);
    }
  }

  /** A word of flag names: one or more lower-case letters. */
  predicate IsWord(w: string) {
    |w| > 0 && forall i :: 0 <= i < |w| ==> IsLower(w[i])
  }

  /** A word with its first letter upper-cased. */
  function Capitalized(w: string): string
    requires IsWord(w)
  {
    [ToUpper(w[0])] + w[1..]
  }

  /** Words joined by underscores, as flag names are written (`database_uri`). */
  function SnakeCase(words: seq<string>): string
    requires |words| > 0 && forall i :: 0 <= i < |words| ==> IsWord(words[i])
  {
    if |words| == 1 then words[0] else words[0] + "_" + SnakeCase(words[1..])
  }

  /** The words capitalized and run together (`DatabaseUri`). */
  function CamelCase(words: seq<string>): string
    requires forall i :: 0 <= i < |words| ==> IsWord(words[i])
  {
    if words == [] then "" else Capitalized(words[0]) + CamelCase(words[1..])
  }

  /** The words capitalized and still joined by underscores (`Database_Uri`). */
  function TitledSnakeCase(words: seq<string>): string
    requires |words| > 0 && forall i :: 0 <= i < |words| ==> IsWord(words[i])
  {
    if |words| == 1 then Capitalized(words[0]) else Capitalized(words[0]) + "_" + TitledSnakeCase(words[1..])
  }

  lemma {:induction false} TitleFromLowerRest(w: string)
    requires forall i :: 0 <= i < |w| ==> IsLower(w[i])
    ensures TitleFrom(w, true) == w
  {
    if w != [] {
      TitleFromLowerRest(w[1..]);
    }
  }

  lemma TitleWord(w: string)
    requires IsWord(w)
    ensures TitleFrom(w, false) == Capitalized(w)
  {
    assert IsLetter(w[0]);
    assert TitleFrom(w, false) == [ToUpper(w[0])] + TitleFrom(w[1..], true);
    TitleFromLowerRest(w[1..]);
  }

  lemma {:induction false} TitleSnakeCase(words: seq<string>)
    requires |words| > 0 && forall i :: 0 <= i < |words| ==> IsWord(words[i])
    ensures Title(SnakeCase(words)) == TitledSnakeCase(words)
  {
    TitleWord(words[0]);
    if |words| > 1 {
      var w := words[0];
      var rest := SnakeCase(words[1..]);
      assert SnakeCase(words) == w + ("_" + rest);
      TitleFromAppend(w, "_" + rest, false);
      TitleFromAppend("_", rest, true);
      TitleSnakeCase(words[1..]);
    }
  }

  lemma {:induction false} RemoveUnderscoresWord(w: string)
    requires forall i :: 0 <= i < |w| ==> w[i] != '_'
    ensures RemoveUnderscores(w) == w
  {
    if w != [] {
      RemoveUnderscoresWord(w[1..]);
    }
  }

  lemma {:induction false} RemoveUnderscoresTitled(words: seq<string>)
    requires |words| > 0 && forall i :: 0 <= i < |words| ==> IsWord(words[i])
    ensures RemoveUnderscores(TitledSnakeCase(words)) == CamelCase(words)
  {
    var c := Capitalized(words[0]);
    RemoveUnderscoresWord(c);
    if |words| == 1 {
      assert CamelCase(words[1..]) == "";
    } else {
      assert TitledSnakeCase(words) == c + ("_" + TitledSnakeCase(words[1..]));
      RemoveUnderscoresAppend(c, "_" + TitledSnakeCase(words[1..]));
      RemoveUnderscoresAppend("_", TitledSnakeCase(words[1..]));
      RemoveUnderscoresTitled(words[1..]);
    }
  }

  /**
   * A snake-case flag name gets the key name `Flag` followed by its words capitalized and run
   * together: `database_uri` is bound under `FlagDatabaseUri`.
   */
  lemma FlagNameOfSnakeCase(words: seq<string>)
    requires |words| > 0 && forall i :: 0 <= i < |words| ==> IsWord(words[i])
    ensures FlagName(SnakeCase(words)) == "Flag" + CamelCase(words)
  {
    TitleSnakeCase(words);
    RemoveUnderscoresTitled(words);
  }

  // ----- Flag: one key object per flag name, cached -----

  /** The module-level `_flag_keys` dictionary from flag names to their keys. */
  class FlagKeys {
    var keys: map<string, Key>

    /** Each cached key carries its flag's key name. */
    ghost predicate Valid()
      reads this
    {
      forall n :: n in keys ==> keys[n].name == FlagName(n)
    }

    constructor ()
      ensures Valid() && keys == map[]
    {
      keys := map[];
    }

    /**
     * `Flag(name)`: the key cached for `name`; on the first call for `name` a new key named
     * `FlagName(name)` is made and cached. No other name's entry changes.
     */
    method Flag(name: string) returns (k: Key)
      requires Valid()
      modifies this
      ensures Valid()
      ensures k.name == FlagName(name)
      ensures name in old(keys) ==> k == old(keys[name]) && keys == old(keys)
      ensures name !in old(keys) ==> fresh(k) && keys == old(keys)[name := k]
      ensures keys.Keys == old(keys).Keys + {name} && keys[name] == k
      ensures forall n :: n in old(keys) ==> keys[n] == old(keys)[n]
    {
      if name in keys {
        k := keys[name];
      } else {
        k := new Key(FlagName(name));
        keys := keys[name := k];
      }
    }
  }

  /** Two calls of `Flag` with the same name return the identical key object. */
  method FlagTwice(registry: FlagKeys, name: string) returns (k1: Key, k2: Key)
    requires registry.Valid()
    modifies registry
    ensures registry.Valid()
    ensures k1 == k2 && k1.name == FlagName(name)
    ensures name in registry.keys && registry.keys[name] == k1
  {
    k1 := registry.Flag(name);
    k2 := registry.Flag(name);
  }

  // ----- FlagsModule.configure -----

  /** An argument value (the parsed namespace's attributes and the options' defaults). */
  datatype Value = NoneValue | BoolValue(b: bool) | IntValue(i: int) | StrValue(s: string)

  /** A parser option: the attribute it stores into and its default. */
  datatype Action = Action(dest: string, default: Value)

  /** A binding issued to the injector: the parsed arguments under `Flags`, or a flag's value under its key. */
  datatype Binding = BindFlags(args: map<string, Value>) | BindFlag(key: Key, value: Value)

  /** The options that get a flag binding: all but `help` and suppressed ones. */
  predicate IsBound(a: Action) {
    a.dest != "help" && a.dest != "==SUPPRESS=="
  }

  /** The flag names the bound options among `actions` store into. */
  function Dests(actions: seq<Action>): set<string> {
    set a | a in actions && IsBound(a) :: a.dest
  }

  /** `getattr(args, dest, default)`: the parsed value when the namespace has one, else the default. */
  function Selected(args: map<string, Value>, a: Action): Value {
    if a.dest in args then args[a.dest] else a.default
  }

  /** The flag bindings issued for `actions`, in order, given the flag keys. */
  function FlagBindings(actions: seq<Action>, args: map<string, Value>, keys: map<string, Key>): seq<Binding>
    requires Dests(actions) <= keys.Keys
  {
    if actions == [] then []
    else
      var last := actions[|actions| - 1];
      FlagBindings(actions[..|actions| - 1], args, keys)
        + (if IsBound(last) then [BindFlag(keys[last.dest], Selected(args, last))] else [])
  }

  /** At most one binding per option, and each binds a flag key: never `Flags` itself. */
  lemma {:induction false} FlagBindingsShape(actions: seq<Action>, args: map<string, Value>, keys: map<string, Key>)
    requires Dests(actions) <= keys.Keys
    ensures |FlagBindings(actions, args, keys)| <= |actions|
    ensures forall b :: b in FlagBindings(actions, args, keys) ==> b.BindFlag?
  {
    if actions != [] {
      var init := actions[..|actions| - 1];
      assert Dests(init) <= Dests(actions) by {
        forall a | a in init ensures a in actions {
        }
      }
      FlagBindingsShape(init, args, keys);
    }
  }

  lemma DestsSnoc(actions: seq<Action>, a: Action)
    ensures Dests(actions + [a]) == Dests(actions) + (if IsBound(a) then {a.dest} else {})
  {
    assert forall b :: b in actions + [a] <==> b in actions || b == a;
  }

  /** One more option adds its binding, if it gets one, at the end. */
  lemma FlagBindingsSnoc(actions: seq<Action>, a: Action, args: map<string, Value>, keys: map<string, Key>)
    requires Dests(actions + [a]) <= keys.Keys
    ensures Dests(actions) <= keys.Keys
    ensures FlagBindings(actions + [a], args, keys) == FlagBindings(actions, args, keys)
      + (if IsBound(a) then [BindFlag(keys[a.dest], Selected(args, a))] else [])
  {
    assert (actions + [a])[..|actions|] == actions;
    assert Dests(actions) <= Dests(actions + [a]);
  }

  /** The flag bindings do not change when more keys are cached beside the ones they use. */
  lemma {:induction false} FlagBindingsGrow(actions: seq<Action>, args: map<string, Value>,
                                            keys: map<string, Key>, more: map<string, Key>)
    requires Dests(actions) <= keys.Keys
    requires forall n :: n in keys ==> n in more && more[n] == keys[n]
    ensures FlagBindings(actions, args, keys) == FlagBindings(actions, args, more)
  {
    if actions != [] {
      FlagBindingsGrow(actions[..|actions| - 1], args, keys, more);
    }
  }

  /** Every binding `FlagBindings` issues binds a bound option's key to its selected value. */
  lemma {:induction false} FlagBindingsAt(actions: seq<Action>, args: map<string, Value>,
                                          keys: map<string, Key>, b: Binding)
    requires Dests(actions) <= keys.Keys
    requires b in FlagBindings(actions, args, keys)
    ensures exists a :: a in actions && IsBound(a) && b == BindFlag(keys[a.dest], Selected(args, a))
  {
    var init := actions[..|actions| - 1];
    if b in FlagBindings(init, args, keys) {
      FlagBindingsAt(init, args, keys, b);
      var a :| a in init && IsBound(a) && b == BindFlag(keys[a.dest], Selected(args, a));
      assert a in actions;
    } else {
      assert actions[|actions| - 1] in actions;
    }
  }

  /** Every bound option gets a binding of its key to its selected value. */
  lemma {:induction false} FlagBindingsComplete(actions: seq<Action>, args: map<string, Value>,
                                                keys: map<string, Key>, a: Action)
    requires Dests(actions) <= keys.Keys
    requires a in actions && IsBound(a)
    ensures BindFlag(keys[a.dest], Selected(args, a)) in FlagBindings(actions, args, keys)
  {
    var init := actions[..|actions| - 1];
    if a != actions[|actions| - 1] {
      assert a in init;
      FlagBindingsComplete(init, args, keys, a);
    }
  }

  /**
   * The state after `configure` has handled `done`, starting from the cached keys `cached` and
   * the bindings `first`: the keys of every bound option are cached, no earlier entry changed,
   * and the bindings are `first` followed by the options' flag bindings in order.
   */
  ghost predicate ConfiguredSoFar(done: seq<Action>, args: map<string, Value>,
                                  cached: map<string, Key>, first: seq<Binding>,
                                  keys: map<string, Key>, bindings: seq<Binding>)
  {
    keys.Keys == cached.Keys + Dests(done) &&
    (forall n :: n in cached ==> keys[n] == cached[n]) &&
    bindings == first + FlagBindings(done, args, keys)
  }

  /** Handling one more option, as the loop of `configure` does, keeps ConfiguredSoFar. */
  lemma ConfigureStep(done: seq<Action>, option: Action, args: map<string, Value>,
                      cached: map<string, Key>, first: seq<Binding>,
                      keys0: map<string, Key>, bindings0: seq<Binding>,
                      keys1: map<string, Key>, bindings1: seq<Binding>)
    requires ConfiguredSoFar(done, args, cached, first, keys0, bindings0)
    requires !IsBound(option) ==> keys1 == keys0 && bindings1 == bindings0
    requires IsBound(option) ==>
      keys1.Keys == keys0.Keys + {option.dest} &&
      (forall n :: n in keys0 ==> keys1[n] == keys0[n]) &&
      bindings1 == bindings0 + [BindFlag(keys1[option.dest], Selected(args, option))]
    ensures ConfiguredSoFar(done + [option], args, cached, first, keys1, bindings1)
  {
    DestsSnoc(done, option);
    FlagBindingsGrow(done, args, keys0, keys1);
    FlagBindingsSnoc(done, option, args, keys1);
  }

  /** FlagsModule: binds the parsed arguments it was made with. */
  class FlagsModule {
    const args: map<string, Value>

    constructor (args: map<string, Value>)
      ensures this.args == args
    {
      this.args := args;
    }

    /**
     * `configure`: binds `Flags` to the parsed arguments, then, in the parser's option order,
     * each bound option's flag key to its selected value; the keys come from `Flag`, so an
     * option's key is cached if it was not already.
     */
    method Configure(binder: Binder<Binding>, registry: FlagKeys, actions: seq<Action>)
      requires registry.Valid()
      modifies binder, registry
      ensures registry.Valid()
      ensures ConfiguredSoFar(actions, args, old(registry.keys), old(binder.bindings) + [BindFlags(args)],
                              registry.keys, binder.bindings)
    {
      binder.Bind(BindFlags(args));
      ghost var cached := registry.keys;
      ghost var first := binder.bindings;
      var i := 0;
      while i < |actions|
        invariant 0 <= i <= |actions|
        invariant registry.Valid()
        invariant ConfiguredSoFar(actions[..i], args, cached, first, registry.keys, binder.bindings)
      {
        var option := actions[i];
        assert actions[..i + 1] == actions[..i] + [option];
        ghost var keysBefore, bindingsBefore := registry.keys, binder.bindings;
        BindOption(binder, registry, option);
        ConfigureStep(actions[..i], option, args, cached, first, keysBefore, bindingsBefore,
                      registry.keys, binder.bindings);
        i := i + 1;
      }
      assert actions[..i] == actions;
    }

    /**
     * The body of the loop of `configure` for one option: unless the option is `help` or
     * suppressed, its flag key (cached by `Flag`) is bound to its selected value.
     */
    method BindOption(binder: Binder<Binding>, registry: FlagKeys, option: Action)
      requires registry.Valid()
      modifies binder, registry
      ensures registry.Valid()
      ensures !IsBound(option) ==> registry.keys == old(registry.keys) && binder.bindings == old(binder.bindings)
      ensures IsBound(option) ==>
        registry.keys.Keys == old(registry.keys).Keys + {option.dest} &&
        (forall n :: n in old(registry.keys) ==> registry.keys[n] == old(registry.keys)[n]) &&
        binder.bindings == old(binder.bindings) + [BindFlag(registry.keys[option.dest], Selected(args, option))]
    {
      if IsBound(option) {
        var key := registry.Flag(option.dest);
        binder.Bind(BindFlag(key, Selected(args, option)));
      }
    }
  }
}

=== FILE: injector.dfy ===
/**
 * The two pieces of the `injector` library that waffle's modules use: binding keys and the
 * binder the modules' `configure` methods bind to.
 */
module Injector {
  /** An injector binding key; every `Key(...)` call makes a new, distinct key object. */
  class Key {
    const name: string

    constructor (name: string)
      ensures this.name == name
    {
      this.name := name;
    }
  }

  /** The injector's binder, as the list of bindings issued to it, in order. */
  class Binder<B> {
    var bindings: seq<B>

    constructor ()
      ensures bindings == []
    {
      bindings := [];
    }

    /** `binder.bind`: the binding is issued after the ones before it. */
    method Bind(b: B)
      modifies this
      ensures bindings == old(bindings) + [b]
    {
      bindings := bindings + [b];
    }
  }
}

=== FILE: model_repr.dfy ===
/**
 * The `repr` of a Model instance (waffle/db.py, `_Model.__repr__`): `Name(k1=v1, k2=v2)` with
 * one entry per column of every mapped class in the instance's MRO, and the entries in
 * sorted key order. Each mapped class's own `polymorphic_on` column is removed from that
 * class's entries; the same column still shows when another class in the MRO contributes it.
 *
 * Python's dict is an association list with distinct keys; the order in which it holds them
 * does not matter, because its items are sorted before they are rendered. Each column's
 * text (`repr(getattr(self, name))`) is given by a function of the column name.
 */
module ModelRepr {
  import opened Wrappers

  /** A mapped class's table: its column names in order and the column named by `polymorphic_on`, if any. */
  datatype Table = Table(columns: seq<string>, polymorphicOn: Option<string>)

  datatype ReprError = KeyError(key: string)

  // ----- Python's string order -----

  /** `a < b` on Python strings: lexicographic by code point, a proper prefix first. */
  predicate LexLess(a: string, b: string) {
    |b| > 0 && (|a| == 0 || a[0] < b[0] || (a[0] == b[0] && LexLess(a[1..], b[1..])))
  }

  lemma {:induction false} LexLessIrreflexive(a: string)
    ensures !LexLess(a, a)
  {
    if |a| > 0 {
      LexLessIrreflexive(a[1..]);
    }
  }

  lemma {:induction false} LexLessTransitive(a: string, b: string, c: string)
    requires LexLess(a, b) && LexLess(b, c)
    ensures LexLess(a, c)
  {
    if |a| > 0 && a[0] == b[0] && b[0] == c[0] {
      LexLessTransitive(a[1..], b[1..], c[1..]);
    }
  }

  lemma {:induction false} LexLessTotal(a: string, b: string)
    requires a != b
    ensures LexLess(a, b) || LexLess(b, a)
  {
    if |a| > 0 && |b| > 0 && a[0] == b[0] {
      LexLessTotal(a[1..], b[1..]);
    }
  }

  // ----- Python's dict -----

  type Dict = seq<(string, string)>

  function Keys(d: Dict): set<string> {
    set p | p in d :: p.0
  }

  /** No key occurs twice, as in every Python dict. */
  predicate DistinctKeys(d: Dict) {
    forall i, j :: 0 <= i < j < |d| ==> d[i].0 != d[j].0
  }

  /** Every entry holds its key's column text. */
  predicate Holds(d: Dict, value: string -> string) {
    forall p :: p in d ==> p.1 == value(p.0)
  }

  /** `d[k] = v`: an existing key keeps its place, a new one goes last. */
  function Put(d: Dict, k: string, v: string): (r: Dict)
    ensures DistinctKeys(d) ==> DistinctKeys(r)
    ensures DistinctKeys(d) ==> forall p :: p in r <==> p == (k, v) || (p in d && p.0 != k)
  {
    if d == [] then [(k, v)]
    else if d[0].0 == k then [(k, v)] + d[1..]
    else [d[0]] + Put(d[1..], k, v)
  }

  /** The entries other than key `k`. */
  function Without(d: Dict, k: string): (r: Dict)
    ensures forall p :: p in r <==> p in d && p.0 != k
    ensures DistinctKeys(d) ==> DistinctKeys(r)
  {
    if d == [] then []
    else if d[0].0 == k then Without(d[1..], k)
    else [d[0]] + Without(d[1..], k)
  }

  /** `del d[k]`: KeyError when `k` is not a key. */
  function Delete(d: Dict, k: string): (r: Result<Dict, ReprError>)
    ensures r.Err? <==> k !in Keys(d)
    ensures r.Err? ==> r.error == KeyError(k)
    ensures r.Ok? ==> forall p :: p in r.value <==> p in d && p.0 != k
  {
    if exists p :: p in d && p.0 == k then Ok(Without(d, k)) else Err(KeyError(k))
  }

  /** The loop of `reprs`: each column's text stored under its name. */
  function PutColumns(d: Dict, columns: seq<string>, value: string -> string): Dict
    decreases |columns|
  {
    if columns == [] then d
    else PutColumns(Put(d, columns[0], value(columns[0])), columns[1..], value)
  }

  /** `d.update(e)`. */
  function Update(d: Dict, e: Dict): Dict
    decreases |e|
  {
    if e == [] then d else Update(Put(d, e[0].0, e[0].1), e[1..])
  }

  // ----- reprs, mro_reprs -----

  /** The keys `reprs` gives a table: its columns but the polymorphic one. */
  function TableKeys(t: Table): set<string> {
    (set c | c in t.columns) - (if t.polymorphicOn.Some? then {t.polymorphicOn.value} else {})
  }

  /** A table whose `polymorphic_on` names a column it does not have, which `del` refuses. */
  predicate Refuses(t: Table) {
    t.polymorphicOn.Some? && t.polymorphicOn.value !in t.columns
  }

  /** `reprs(cls)`. */
  function TableAttrs(t: Table, value: string -> string): Result<Dict, ReprError> {
    var attrs := PutColumns([], t.columns, value);
    match t.polymorphicOn
    case None => Ok(attrs)
    case Some(p) => Delete(attrs, p)
  }

  /** The classes of an MRO, in order: a table for each mapped class, None for the others. */
  type Mro = seq<Option<Table>>

  /** `mro_reprs`, continuing from `acc`. */
  function MroAttrsFrom(acc: Dict, mro: Mro, value: string -> string): Result<Dict, ReprError>
    decreases |mro|
  {
    if mro == [] then Ok(acc)
    else match mro[0]
      case None => MroAttrsFrom(acc, mro[1..], value)
      case Some(t) =>
        match TableAttrs(t, value)
        case Err(e) => Err(e)
        case Ok(a) => MroAttrsFrom(Update(acc, a), mro[1..], value)
  }

  function MroAttrs(mro: Mro, value: string -> string): Result<Dict, ReprError> {
    MroAttrsFrom([], mro, value)
  }

  /** The keys of every table in the MRO. */
  function MroKeys(mro: Mro): set<string> {
    if mro == [] then {}
    else (if mro[0].Some? then TableKeys(mro[0].value) else {}) + MroKeys(mro[1..])
  }

  /** Some table in the MRO refuses its `del`. */
  predicate AnyRefuses(mro: Mro) {
    exists i :: 0 <= i < |mro| && mro[i].Some? && Refuses(mro[i].value)
  }

  lemma {:induction false} PutColumnsSpec(d: Dict, columns: seq<string>, value: string -> string)
    requires DistinctKeys(d) && Holds(d, value)
    ensures DistinctKeys(PutColumns(d, columns, value))
    ensures Holds(PutColumns(d, columns, value), value)
    ensures Keys(PutColumns(d, columns, value)) == Keys(d) + set c | c in columns
    decreases |columns|
  {
    if columns != [] {
      var d' := Put(d, columns[0], value(columns[0]));
      assert Keys(d') == Keys(d) + {columns[0]} by {
        forall k | k in Keys(d) + {columns[0]}
          ensures k in Keys(d')
        {
          if k != columns[0] {
            var p :| p in d && p.0 == k;
            assert p in d';
          } else {
            assert (k, value(k)) in d';
          }
        }
      }
      PutColumnsSpec(d', columns[1..], value);
      assert (set c | c in columns) == {columns[0]} + set c | c in columns[1..];
    }
  }

  lemma {:induction false} UpdateSpec(d: Dict, e: Dict, value: string -> string)
    requires DistinctKeys(d) && Holds(d, value) && Holds(e, value)
    ensures DistinctKeys(Update(d, e)) && Holds(Update(d, e), value)
    ensures Keys(Update(d, e)) == Keys(d) + Keys(e)
    decreases |e|
  {
    if e != [] {
      var d' := Put(d, e[0].0, e[0].1);
      assert Keys(d') == Keys(d) + {e[0].0} by {
        forall k | k in Keys(d) + {e[0].0}
          ensures k in Keys(d')
        {
          if k != e[0].0 {
            var p :| p in d && p.0 == k;
            assert p in d';
          } else {
            assert e[0] in d';
          }
        }
      }
      assert Holds(e[1..], value) by {
        forall p | p in e[1..] ensures p in e {}
      }
      UpdateSpec(d', e[1..], value);
      assert Keys(e) == {e[0].0} + Keys(e[1..]) by {
        assert e == [e[0]] + e[1..];
      }
    }
  }

  /**
   * `reprs(cls)`: every column but the polymorphic one, each holding its text; KeyError
   * exactly when the polymorphic column is not one of the table's columns.
   */
  lemma TableAttrsSpec(t: Table, value: string -> string)
    ensures TableAttrs(t, value).Err? <==> Refuses(t)
    ensures TableAttrs(t, value).Err? ==> TableAttrs(t, value).error == KeyError(t.polymorphicOn.value)
    ensures TableAttrs(t, value).Ok? ==>
      var a := TableAttrs(t, value).value;
      DistinctKeys(a) && Holds(a, value) && Keys(a) == TableKeys(t)
  {
    var attrs := PutColumns([], t.columns, value);
    PutColumnsSpec([], t.columns, value);
    assert Keys([]) == {};
    if t.polymorphicOn.Some? {
      var p := t.polymorphicOn.value;
      var r := Delete(attrs, p);
      if r.Ok? {
        assert Keys(r.value) == Keys(attrs) - {p} by {
          forall k | k in Keys(attrs) - {p}
            ensures k in Keys(r.value)
          {
            var q :| q in attrs && q.0 == k;
            assert q in r.value;
          }
        }
      }
    }
  }

  /**
   * `mro_reprs`: KeyError exactly when some mapped class in the MRO refuses its `del`;
   * otherwise the keys of every table, each holding its column text, no key twice.
   */
  lemma {:induction false} MroAttrsFromSpec(acc: Dict, mro: Mro, value: string -> string)
    requires DistinctKeys(acc) && Holds(acc, value)
    ensures MroAttrsFrom(acc, mro, value).Err? <==> AnyRefuses(mro)
    ensures MroAttrsFrom(acc, mro, value).Ok? ==>
      var a := MroAttrsFrom(acc, mro, value).value;
      DistinctKeys(a) && Holds(a, value) && Keys(a) == Keys(acc) + MroKeys(mro)
    decreases |mro|
  {
    if mro != [] {
      assert AnyRefuses(mro) <==> (mro[0].Some? && Refuses(mro[0].value)) || AnyRefuses(mro[1..]) by {
        if AnyRefuses(mro[1..]) {
          var i :| 0 <= i < |mro[1..]| && mro[1..][i].Some? && Refuses(mro[1..][i].value);
          assert mro[i + 1] == mro[1..][i];
        }
        if AnyRefuses(mro) {
          var i :| 0 <= i < |mro| && mro[i].Some? && Refuses(mro[i].value);
          if i > 0 {
            assert mro[1..][i - 1] == mro[i];
          }
        }
      }
      match mro[0]
      case None =>
        MroAttrsFromSpec(acc, mro[1..], value);
      case Some(t) =>
        TableAttrsSpec(t, value);
        if TableAttrs(t, value).Ok? {
          var a := TableAttrs(t, value).value;
          UpdateSpec(acc, a, value);
          MroAttrsFromSpec(Update(acc, a), mro[1..], value);
        }
    }
  }

  lemma MroAttrsSpec(mro: Mro, value: string -> string)
    ensures MroAttrs(mro, value).Err? <==> AnyRefuses(mro)
    ensures MroAttrs(mro, value).Ok? ==>
      var a := MroAttrs(mro, value).value;
      DistinctKeys(a) && Holds(a, value) && Keys(a) == MroKeys(mro)
  {
    MroAttrsFromSpec([], mro, value);
    assert Keys([]) == {};
  }

  /**
   * Single-table inheritance: a subclass that shares its parent's table but names no
   * `polymorphic_on` keeps the discriminator, so it shows although the parent drops it.
   */
  lemma SharedDiscriminatorShows(value: string -> string)
    ensures var mro := [Some(Table(["id", "type"], None)), Some(Table(["id", "type"], Some("type"))), None];
      MroAttrs(mro, value).Ok? && "type" in Keys(MroAttrs(mro, value).value)
  {
    var mro := [Some(Table(["id", "type"], None)), Some(Table(["id", "type"], Some("type"))), None];
    assert !AnyRefuses(mro);
    assert "type" in TableKeys(mro[0].value);
    MroAttrsSpec(mro, value);
  }

  // ----- sorted(attrs.items()) -----

  /** Strictly increasing keys. */
  predicate Sorted(d: Dict) {
    forall i :: 0 < i < |d| ==> LexLess(d[i - 1].0, d[i].0)
  }

  /** Insertion of an entry into a sorted list of entries. */
  function Insert(p: (string, string), d: Dict): Dict {
    if d == [] || LexLess(p.0, d[0].0) then [p] + d else [d[0]] + Insert(p, d[1..])
  }

  /** `sorted(items)`: an insertion sort by key. */
  function SortItems(d: Dict): Dict {
    if d == [] then [] else Insert(d[0], SortItems(d[1..]))
  }

  lemma {:induction false} InsertSorted(p: (string, string), d: Dict)
    requires Sorted(d) && p.0 !in Keys(d)
    ensures Sorted(Insert(p, d))
    ensures Insert(p, d)[0] == p || Insert(p, d)[0] == d[0]
  {
    if d != [] && !LexLess(p.0, d[0].0) {
      assert d[0] in d;
      LexLessTotal(p.0, d[0].0);
      assert Keys(d[1..]) <= Keys(d) by {
        forall q | q in d[1..] ensures q in d {}
      }
      InsertSorted(p, d[1..]);
    }
  }

  /** The sort keeps every entry: a permutation. */
  lemma {:induction false} SortItemsPermutes(d: Dict)
    ensures multiset(SortItems(d)) == multiset(d)
  {
    if d != [] {
      SortItemsPermutes(d[1..]);
      InsertPermutes(d[0], SortItems(d[1..]));
      assert d == [d[0]] + d[1..];
    }
  }

  lemma {:induction false} InsertPermutes(p: (string, string), d: Dict)
    ensures multiset(Insert(p, d)) == multiset(d) + multiset{p}
  {
    if d != [] && !LexLess(p.0, d[0].0) {
      InsertPermutes(p, d[1..]);
      assert d == [d[0]] + d[1..];
    }
  }

  /** The sort puts entries with distinct keys in strictly increasing key order. */
  lemma {:induction false} SortItemsSorted(d: Dict)
    requires DistinctKeys(d)
    ensures Sorted(SortItems(d))
  {
    if d != [] {
      assert DistinctKeys(d[1..]) by {
        forall i, j | 0 <= i < j < |d[1..]|
          ensures d[1..][i].0 != d[1..][j].0
        {
          assert d[1..][i] == d[i + 1] && d[1..][j] == d[j + 1];
        }
      }
      SortItemsSorted(d[1..]);
      SortItemsPermutes(d[1..]);
      assert d[0].0 !in Keys(SortItems(d[1..])) by {
        forall q | q in SortItems(d[1..])
          ensures q.0 != d[0].0
        {
          assert q in multiset(SortItems(d[1..]));
          assert q in d[1..];
          var j :| 0 <= j < |d[1..]| && d[1..][j] == q;
          assert d[j + 1] == q;
        }
      }
      InsertSorted(d[0], SortItems(d[1..]));
    }
  }

  lemma {:induction false} SortedIsIncreasing(d: Dict, i: int, j: int)
    requires Sorted(d) && 0 <= i < j < |d|
    ensures LexLess(d[i].0, d[j].0)
    decreases j - i
  {
    if j > i + 1 {
      SortedIsIncreasing(d, i, j - 1);
      LexLessTransitive(d[i].0, d[j - 1].0, d[j].0);
    }
  }

  lemma SameEntriesEmpty(a: Dict, b: Dict)
    requires forall p :: p in a <==> p in b
    ensures a == [] <==> b == []
  {
    if a != [] {
      assert a[0] in b;
    }
    if b != [] {
      assert b[0] in a;
    }
  }

  lemma NoKeysEmpty(d: Dict)
    ensures Keys(d) == {} <==> d == []
  {
    if d != [] {
      assert d[0].0 in Keys(d);
    }
  }

  /** Two strictly sorted lists with the same entries are the same list. */
  lemma {:induction false} SortedUnique(a: Dict, b: Dict)
    requires Sorted(a) && Sorted(b)
    requires forall p :: p in a <==> p in b
    ensures a == b
  {
    if a != [] && b != [] {
      assert a[0] in b && b[0] in a;
      if a[0] != b[0] {
        var i :| 0 <= i < |a| && a[i] == b[0];
        var j :| 0 <= j < |b| && b[j] == a[0];
        if i == 0 {
          assert false;
        }
        SortedIsIncreasing(a, 0, i);
        if j == 0 {
          assert false;
        }
        SortedIsIncreasing(b, 0, j);
        LexLessTransitive(a[0].0, b[0].0, a[0].0);
        LexLessIrreflexive(a[0].0);
      }
      forall p
        ensures p in a[1..] <==> p in b[1..]
      {
        if p in a[1..] {
          var i :| 0 <= i < |a[1..]| && a[1..][i] == p;
          SortedIsIncreasing(a, 0, i + 1);
          LexLessIrreflexive(p.0);
          assert p in b;
          var j :| 0 <= j < |b| && b[j] == p;
        }
        if p in b[1..] {
          var j :| 0 <= j < |b[1..]| && b[1..][j] == p;
          SortedIsIncreasing(b, 0, j + 1);
          LexLessIrreflexive(p.0);
          assert p in a;
        }
      }
      SortedUnique(a[1..], b[1..]);
      assert a == [a[0]] + a[1..] && b == [b[0]] + b[1..];
    } else {
      SameEntriesEmpty(a, b);
    }
  }

  // ----- format and the result -----

  /** `format`: `key=value` for each entry. */
  function Format(items: Dict): seq<string> {
    if items == [] then [] else [items[0].0 + "=" + items[0].1] + Format(items[1..])
  }

  /** `', '.join(parts)`. */
  function Join(parts: seq<string>): string {
    if parts == [] then ""
    else if |parts| == 1 then parts[0]
    else parts[0] + ", " + Join(parts[1..])
  }

  /** `'%s(%s)' % (cls_name, ...)` over sorted entries. */
  function Render(className: string, items: Dict): string {
    className + "(" + Join(Format(items)) + ")"
  }

  /** `__repr__` of an instance of class `className` whose MRO is `mro`. */
  function Repr(className: string, mro: Mro, value: string -> string): Result<string, ReprError> {
    match MroAttrs(mro, value)
    case Err(e) => Err(e)
    case Ok(attrs) => Ok(Render(className, SortItems(attrs)))
  }

  /**
   * The repr is the class name around the entries of exactly the MRO's keys, each with its
   * column text, in strictly increasing key order; it fails exactly when some class's `del`
   * fails.
   */
  lemma ReprSpec(className: string, mro: Mro, value: string -> string)
    ensures Repr(className, mro, value).Err? <==> AnyRefuses(mro)
    ensures Repr(className, mro, value).Ok? ==>
      exists items :: Repr(className, mro, value) == Ok(Render(className, items)) &&
        Sorted(items) && DistinctKeys(items) && Holds(items, value) && Keys(items) == MroKeys(mro)
  {
    MroAttrsSpec(mro, value);
    if MroAttrs(mro, value).Ok? {
      var attrs := MroAttrs(mro, value).value;
      var items := SortItems(attrs);
      SortItemsSorted(attrs);
      SortItemsPermutes(attrs);
      forall p ensures p in items <==> p in attrs {
        assert p in items <==> p in multiset(items);
      }
      assert DistinctKeys(items) by {
        forall i, j | 0 <= i < j < |items|
          ensures items[i].0 != items[j].0
        {
          SortedIsIncreasing(items, i, j);
          LexLessIrreflexive(items[i].0);
        }
      }
      assert Keys(items) == Keys(attrs);
    }
  }

  /**
   * The order of the columns and of the classes does not show in the repr: two MROs whose
   * tables give the same entries give the same text.
   */
  lemma ReprOrderIndependent(className: string, mro1: Mro, mro2: Mro, value: string -> string)
    requires !AnyRefuses(mro1) && !AnyRefuses(mro2)
    requires MroKeys(mro1) == MroKeys(mro2)
    ensures Repr(className, mro1, value) == Repr(className, mro2, value)
  {
    MroAttrsSpec(mro1, value);
    MroAttrsSpec(mro2, value);
    var a1 := MroAttrs(mro1, value).value;
    var a2 := MroAttrs(mro2, value).value;
    SortItemsSorted(a1);
    SortItemsSorted(a2);
    SortItemsPermutes(a1);
    SortItemsPermutes(a2);
    var s1, s2 := SortItems(a1), SortItems(a2);
    forall p
      ensures p in s1 <==> p in s2
    {
      assert p in s1 <==> p in multiset(s1);
      assert p in s2 <==> p in multiset(s2);
      if p in a1 {
        assert p.0 in Keys(a2);
        var q :| q in a2 && q.0 == p.0;
      }
      if p in a2 {
        assert p.0 in Keys(a1);
        var q :| q in a1 && q.0 == p.0;
      }
    }
    SortedUnique(s1, s2);
  }

  /** No keys left (no mapped class, or only discriminator columns): `ClassName()`. */
  lemma ReprNoColumns(className: string, mro: Mro, value: string -> string)
    requires !AnyRefuses(mro) && MroKeys(mro) == {}
    ensures Repr(className, mro, value) == Ok(className + "()")
  {
    MroAttrsSpec(mro, value);
    var a := MroAttrs(mro, value).value;
    NoKeysEmpty(a);
    assert Join(Format(SortItems(a))) == "";
    assert className + "(" + "" + ")" == className + "()";
  }
}

=== FILE: reltime.dfy ===
/**
 * Relative-time parsing (waffle/util.py, parse_reltime).
 *
 * A relative time is either a duration already, which is returned unchanged, or a string
 * that is scanned left to right for components matching `([-+]?\d+)(ms|[dhms])`; the result
 * is the sum of each component's signed integer times its unit. Durations are integer
 * milliseconds here.
 */
module Reltime {
  import opened Wrappers

  /** The unit suffixes a component may carry. */
  datatype Unit = Millis | Seconds | Minutes | Hours | Days

  /** Milliseconds per unit: ms = 0.001 s, s = 1 s, m = 60 s, h = 3600 s, d = 24 * 3600 s. */
  function FactorMs(u: Unit): nat {
    match u
    case Millis => 1
    case Seconds => 1000
    case Minutes => 60 * 1000
    case Hours => 3600 * 1000
    case Days => 24 * 3600 * 1000
  }

  /** One `<signed integer><unit>` component found by the scanner. */
  datatype Component = Component(value: int, unit: Unit)

  /** The argument of parse_reltime: a duration (a timedelta, in milliseconds) or a string. */
  datatype RelTime = Duration(ms: int) | Text(s: string)

  /** `\d` of a byte-string pattern: an ASCII digit. */
  predicate IsDigit(c: char) { '0' <= c <= '9' }

  predicate IsSign(c: char) { c == '+' || c == '-' }

  /** Length of the longest prefix of `s` made of digits (the greedy `\d+`). */
  function DigitRun(s: string): (n: nat)
    ensures n <= |s|
    ensures forall i :: 0 <= i < n ==> IsDigit(s[i])
    ensures n < |s| ==> !IsDigit(s[n])
  {
    if s != [] && IsDigit(s[0]) then 1 + DigitRun(s[1..]) else 0
  }

  predicate AllDigits(ds: string) {
    forall i :: 0 <= i < |ds| ==> IsDigit(ds[i])
  }

  /** The decimal value of a digit string. */
  function DigitsValue(ds: string): nat
    requires AllDigits(ds)
  {
    if ds == [] then 0 else DigitsValue(ds[..|ds| - 1]) * 10 + (ds[|ds| - 1] as int - '0' as int)
  }

  /** The unit spelled at the start of `s` and its length; `ms` is tried before the single letters. */
  function UnitAt(s: string): (r: Option<(Unit, nat)>)
    ensures r.Some? ==> 0 < r.value.1 <= |s|
  {
    if |s| >= 2 && s[0] == 'm' && s[1] == 's' then Some((Millis, 2))
    else if s == [] then None
    else if s[0] == 'd' then Some((Days, 1))
    else if s[0] == 'h' then Some((Hours, 1))
    else if s[0] == 'm' then Some((Minutes, 1))
    else if s[0] == 's' then Some((Seconds, 1))
    else None
  }

  /** The match of `\d+(ms|[dhms])` at the start of `s`: the digits' value, the unit, the length consumed. */
  function MatchUnsigned(s: string): (r: Option<(nat, Unit, nat)>)
    ensures r.Some? ==> 2 <= r.value.2 <= |s|
  {
    var n := DigitRun(s);
    if n == 0 then None
    else
      match UnitAt(s[n..])
      case None => None
      case Some((u, len)) => Some((DigitsValue(s[..n]), u, n + len))
  }

  /**
   * The match of the component pattern `([-+]?\d+)(ms|[dhms])` anchored at the start of `s`,
   * with the number of characters it consumes. A sign not followed by digits, or digits not
   * followed by a unit, do not match (backtracking over the optional sign finds nothing,
   * since a sign is not a digit).
   */
  function MatchPrefix(s: string): (r: Option<(Component, nat)>)
    ensures r.Some? ==> 2 <= r.value.1 <= |s|
  {
    if s != [] && IsSign(s[0]) then
      match MatchUnsigned(s[1..])
      case None => None
      case Some((m, u, n)) => Some((Component(if s[0] == '-' then -(m as int) else m, u), n + 1))
    else
      match MatchUnsigned(s)
      case None => None
      case Some((m, u, n)) => Some((Component(m, u), n))
  }

  /**
   * `re.findall` of the component pattern: components left to right without overlap;
   * where no component starts, one character is skipped.
   */
  function Findall(s: string): (r: seq<Component>)
    ensures 2 * |r| <= |s|
    decreases |s|
  {
    if s == [] then []
    else
      match MatchPrefix(s)
      case None => Findall(s[1..])
      case Some((c, n)) => [c] + Findall(s[n..])
  }

  /** A component's signed value times its unit, in milliseconds. */
  function Weight(c: Component): int {
    c.value * FactorMs(c.unit)
  }

  /** The sum of the components, each its signed value times its unit, in milliseconds. */
  function Total(cs: seq<Component>): int {
    if cs == [] then 0 else Weight(cs[0]) + Total(cs[1..])
  }

  /** With no negative component the sum is not negative. */
  lemma {:induction false} TotalNonNegative(cs: seq<Component>)
    requires forall i :: 0 <= i < |cs| ==> cs[i].value >= 0
    ensures Total(cs) >= 0
  {
    if cs != [] {
      TotalNonNegative(cs[1..]);
    }
  }

  /** What parse_reltime returns, in milliseconds. */
  function ReltimeMs(rt: RelTime): int {
    match rt
    case Duration(ms) => ms
    case Text(s) => Total(Findall(s))
  }

  /**
   * parse_reltime: a duration is returned as it is; for a string, the components `findall`
   * returns are summed one by one.
   */
  method ParseReltime(rt: RelTime) returns (ms: int)
    ensures ms == ReltimeMs(rt)
  {
    if rt.Duration? {
      return rt.ms;
    }
    var cs := Findall(rt.s);
    ms := 0;
    var i := 0;
    while i < |cs|
      invariant 0 <= i <= |cs|
      invariant ms + Total(cs[i..]) == Total(cs)
    {
      assert cs[i..] == [cs[i]] + cs[i + 1..];
      ms := ms + Weight(cs[i]);
      i := i + 1;
    }
  }

  /** Parsing a parsed duration again gives the same duration. */
  lemma Idempotent(rt: RelTime)
    ensures ReltimeMs(Duration(ReltimeMs(rt))) == ReltimeMs(rt)
  {
  }

  /** A matched component is negative only when its sign is a minus. */
  lemma MatchPrefixNegative(s: string)
    ensures MatchPrefix(s).Some? && MatchPrefix(s).value.0.value < 0 ==> s[0] == '-'
  {
  }

  /** A component is negative only when the text holds a minus sign. */
  lemma {:induction false} FindallNegativeNeedsMinus(s: string)
    ensures forall i :: 0 <= i < |Findall(s)| && Findall(s)[i].value < 0 ==> '-' in s
    decreases |s|
  {
    if s != [] {
      match MatchPrefix(s)
      case None =>
        FindallNegativeNeedsMinus(s[1..]);
        assert forall c :: c in s[1..] ==> c in s;
      case Some((c, n)) =>
        MatchPrefixNegative(s);
        FindallNegativeNeedsMinus(s[n..]);
        assert forall c :: c in s[n..] ==> c in s;
    }
  }

  /** Without a minus sign no component is negative, so the duration is not negative. */
  lemma UnsignedTextNonNegative(s: string)
    requires '-' !in s
    ensures ReltimeMs(Text(s)) >= 0
  {
    FindallNegativeNeedsMinus(s);
    TotalNonNegative(Findall(s));
  }

  /** A string without any digit holds no component and parses to a zero duration. */
  lemma {:induction false} NoDigitsIsZero(s: string)
    requires forall i :: 0 <= i < |s| ==> !IsDigit(s[i])
    ensures Findall(s) == []
    ensures ReltimeMs(Text(s)) == 0
    decreases |s|
  {
    if s != [] {
      assert DigitRun(s) == 0;
      assert MatchPrefix(s) == None by {
        if IsSign(s[0]) {
          assert |s| == 1 || !IsDigit(s[1..][0]);
        }
      }
      NoDigitsIsZero(s[1..]);
    }
  }

  /** Characters that are neither digits nor signs cannot start a component and are skipped. */
  lemma {:induction false} SkipsJunk(junk: string, t: string)
    requires forall i :: 0 <= i < |junk| ==> !IsDigit(junk[i]) && !IsSign(junk[i])
    ensures Findall(junk + t) == Findall(t)
    decreases |junk|
  {
    if junk != [] {
      var s := junk + t;
      assert s[0] == junk[0];
      assert DigitRun(s) == 0;
      assert MatchPrefix(s) == None;
      assert Findall(s) == Findall(s[1..]);
      assert s[1..] == junk[1..] + t;
      SkipsJunk(junk[1..], t);
    } else {
      assert junk + t == t;
    }
  }

  // ----- Rendering components, the inverse of scanning -----

  function DigitChar(d: nat): char
    requires d < 10
  {
    ('0' as int + d) as char
  }

  /** The decimal spelling of `n`, without leading zeros. */
  function NatDigits(n: nat): (ds: string)
    ensures ds != [] && AllDigits(ds)
  {
    if n < 10 then [DigitChar(n)] else NatDigits(n / 10) + [DigitChar(n % 10)]
  }

  function UnitText(u: Unit): string {
    match u
    case Millis => "ms"
    case Seconds => "s"
    case Minutes => "m"
    case Hours => "h"
    case Days => "d"
  }

  /** A component written in the documented form: an optional `-`, the digits, the unit. */
  function Show(c: Component): string {
    (if c.value < 0 then "-" else "") + NatDigits(if c.value < 0 then -c.value else c.value) + UnitText(c.unit)
  }

  /** Components written one after another, as in `5h3m2s`. */
  function Render(cs: seq<Component>): string {
    if cs == [] then "" else Show(cs[0]) + Render(cs[1..])
  }

  lemma {:induction false} DigitsValueOfNatDigits(n: nat)
    ensures DigitsValue(NatDigits(n)) == n
  {
    if n >= 10 {
      var ds := NatDigits(n);
      assert ds[..|ds| - 1] == NatDigits(n / 10);
      DigitsValueOfNatDigits(n / 10);
    }
  }

  lemma {:induction false} DigitRunOfDigits(ds: string, rest: string)
    requires AllDigits(ds)
    requires rest == [] || !IsDigit(rest[0])
    ensures DigitRun(ds + rest) == |ds|
    decreases |ds|
  {
    if ds != [] {
      assert (ds + rest)[1..] == ds[1..] + rest;
      DigitRunOfDigits(ds[1..], rest);
    } else {
      assert ds + rest == rest;
    }
  }

  /** A unit's spelling followed by anything but an `s` reads back as that unit. */
  lemma UnitAtText(u: Unit, t: string)
    requires t == [] || t[0] != 's'
    ensures UnitAt(UnitText(u) + t) == Some((u, |UnitText(u)|))
  {
    var s := UnitText(u) + t;
    if u == Minutes && |s| >= 2 {
      assert s[1] == t[0];
    }
  }

  /** The unsigned pattern matches a digit run followed by a unit. */
  lemma MatchUnsignedAt(s: string, n: nat, u: Unit, len: nat)
    requires 0 < n <= |s| && DigitRun(s) == n && UnitAt(s[n..]) == Some((u, len))
    ensures MatchUnsigned(s) == Some((DigitsValue(s[..n]), u, n + len))
  {
  }

  /** A sign followed by an unsigned match is a component match, negative for `-`. */
  lemma MatchPrefixSigned(sign: char, rest: string, m: nat, u: Unit, n: nat)
    requires IsSign(sign) && MatchUnsigned(rest) == Some((m, u, n))
    ensures MatchPrefix([sign] + rest) == Some((Component(if sign == '-' then -(m as int) else m, u), n + 1))
  {
    assert ([sign] + rest)[1..] == rest;
  }

  /** Without a sign, a component match is the unsigned match. */
  lemma MatchPrefixUnsigned(s: string, m: nat, u: Unit, n: nat)
    requires s != [] && !IsSign(s[0]) && MatchUnsigned(s) == Some((m, u, n))
    ensures MatchPrefix(s) == Some((Component(m, u), n))
  {
  }

  /** How the unsigned pattern sees digits followed by a unit's spelling (and anything but an `s`). */
  lemma ShownParts(m: nat, u: Unit, t: string)
    requires t == [] || t[0] != 's'
    ensures var s := NatDigits(m) + UnitText(u) + t;
      DigitRun(s) == |NatDigits(m)| &&
      DigitsValue(s[..|NatDigits(m)|]) == m &&
      UnitAt(s[|NatDigits(m)|..]) == Some((u, |UnitText(u)|))
  {
    var ds := NatDigits(m);
    var after := UnitText(u) + t;
    var s := ds + after;
    assert NatDigits(m) + UnitText(u) + t == s;
    assert DigitRun(s) == |ds| by {
      assert after[0] == UnitText(u)[0];
      DigitRunOfDigits(ds, after);
    }
    assert DigitsValue(s[..|ds|]) == m by {
      assert s[..|ds|] == ds;
      DigitsValueOfNatDigits(m);
    }
    assert UnitAt(s[|ds|..]) == Some((u, |UnitText(u)|)) by {
      assert s[|ds|..] == after;
      UnitAtText(u, t);
    }
  }

  /** Digits followed by a unit's spelling (and anything but an `s`) match whole. */
  lemma MatchUnsignedShown(m: nat, u: Unit, t: string)
    requires t == [] || t[0] != 's'
    ensures MatchUnsigned(NatDigits(m) + UnitText(u) + t) == Some((m, u, |NatDigits(m)| + |UnitText(u)|))
  {
    ShownParts(m, u, t);
    MatchUnsignedAt(NatDigits(m) + UnitText(u) + t, |NatDigits(m)|, u, |UnitText(u)|);
  }

  /** A negative component, shown and followed by anything but an `s`, is matched whole. */
  lemma MatchShownNegative(c: Component, t: string)
    requires c.value < 0
    requires t == [] || t[0] != 's'
    ensures MatchPrefix(Show(c) + t) == Some((c, |Show(c)|))
  {
    var m: nat := -c.value;
    var rest := NatDigits(m) + UnitText(c.unit) + t;
    assert Show(c) + t == ['-'] + rest && |Show(c)| == |NatDigits(m)| + |UnitText(c.unit)| + 1 by {
      assert Show(c) == "-" + NatDigits(m) + UnitText(c.unit);
    }
    MatchUnsignedShown(m, c.unit, t);
    MatchPrefixSigned('-', rest, m, c.unit, |NatDigits(m)| + |UnitText(c.unit)|);
  }

  /** A non-negative component, shown and followed by anything but an `s`, is matched whole. */
  lemma MatchShownNonNegative(c: Component, t: string)
    requires c.value >= 0
    requires t == [] || t[0] != 's'
    ensures MatchPrefix(Show(c) + t) == Some((c, |Show(c)|))
  {
    var m: nat := c.value;
    var rest := NatDigits(m) + UnitText(c.unit) + t;
    assert Show(c) + t == rest && |Show(c)| == |NatDigits(m)| + |UnitText(c.unit)| by {
      assert Show(c) == NatDigits(m) + UnitText(c.unit);
    }
    MatchUnsignedShown(m, c.unit, t);
    assert rest[0] == NatDigits(m)[0];
    MatchPrefixUnsigned(rest, m, c.unit, |NatDigits(m)| + |UnitText(c.unit)|);
  }

  /** A shown component followed by anything but an `s` is matched exactly, whole. */
  lemma MatchShown(c: Component, t: string)
    requires t == [] || t[0] != 's'
    ensures MatchPrefix(Show(c) + t) == Some((c, |Show(c)|))
  {
    if c.value < 0 {
      MatchShownNegative(c, t);
    } else {
      MatchShownNonNegative(c, t);
    }
  }

  lemma ShowStartsComponent(c: Component)
    ensures Show(c) != [] && Show(c)[0] != 's'
  {
    var ds := NatDigits(if c.value < 0 then -c.value else c.value);
    if c.value >= 0 {
      assert Show(c)[0] == ds[0];
    }
  }

  /** Scanning what Render wrote gives back the same components, in order. */
  lemma {:induction false} FindallRender(cs: seq<Component>)
    ensures Findall(Render(cs)) == cs
  {
    if cs != [] {
      var t := Render(cs[1..]);
      if cs[1..] != [] {
        ShowStartsComponent(cs[1..][0]);
        assert t[0] == Show(cs[1..][0])[0];
      }
      MatchShown(cs[0], t);
      var s := Show(cs[0]) + t;
      assert s[|Show(cs[0])|..] == t;
      FindallRender(cs[1..]);
    }
  }

  /** A string in the documented form parses to the sum of its components. */
  lemma RenderParsesToTotal(cs: seq<Component>)
    ensures ReltimeMs(Text(Render(cs))) == Total(cs)
  {
    FindallRender(cs);
  }

  /** The documented example: `5h3m2s` is 5 hours, 3 minutes and 2 seconds. */
  lemma DocumentedExample()
    ensures ReltimeMs(Text("5h3m2s")) == (5 * 3600 + 3 * 60 + 2) * 1000
  {
    var cs := [Component(5, Hours), Component(3, Minutes), Component(2, Seconds)];
    assert Render(cs) == "5h3m2s";
    RenderParsesToTotal(cs);
  }

  /** `ms` is preferred over `m`: `5ms` is five milliseconds, not five minutes and a stray `s`. */
  lemma MillisBeforeMinutes()
    ensures Findall("5ms") == [Component(5, Millis)]
    ensures ReltimeMs(Text("5ms")) == 5
  {
    var cs := [Component(5, Millis)];
    assert Render(cs) == "5ms";
    FindallRender(cs);
  }

  /** The sign applies to its own component only: `-1m30s` is minus one minute plus thirty seconds. */
  lemma SignPerComponent()
    ensures ReltimeMs(Text("-1m30s")) == -60 * 1000 + 30 * 1000
  {
    var cs := [Component(-1, Minutes), Component(30, Seconds)];
    assert Render(cs) == "-1m30s";
    RenderParsesToTotal(cs);
  }
}

=== FILE: wrappers.dfy ===
/** Wrappers shared by the other modules: an optional value and a value-or-error. */
module Wrappers {

  /** A value that may be absent (Python's `None`). */
  datatype Option<+T> = None | Some(value: T)

  /** The outcome of an operation that either returns a value or raises an error. */
  datatype Result<+T, +E> = Ok(value: T) | Err(error: E)
}
